=== FILE: README.md ===
# xv6 process table and schedulers, modelled in Dafny

This project models the process-table core of a teaching kernel derived from
xv6-riscv (`kernel/proc.c`): a fixed table of `NPROC` = 64 process slots, the
operations that allocate, free and move slots through their life cycle
(`allocproc`, `freeproc`, `fork`, `clone`, `exit`, `reparent`, `wait`,
`sleep`, `yield`, `wakeup`, `kill`), the three slot-selection rules of
`scheduler` (round robin, lottery, stride), the 16-bit LFSR `rand` that feeds
the lottery, `set_sched_tickets` and the live-slot count of `get_sysinfo(0)`.

Each kernel operation is one pure function from a table (plus the globals
`nextpid`, `nexttid`, the LFSR register and `initproc`) to a new table and a
result. Each step is modelled as atomic: the model has one CPU's view and no
locks. Three places in the source where locking decides the outcome are
therefore outside it. `clone`'s two failure paths return with the new slot's
lock still held; the model records the slot they leave behind but not the lock
(see Findings and Left out). The stride rule scans states and passes without
any lock and then sets its pick RUNNING without checking again that it is
still RUNNABLE, so on several CPUs it can race with another CPU or with a
process that went to sleep after the scan. The lottery sums the tickets
without any lock and draws from a generator whose register is shared and
unlocked, and only its second loop checks RUNNABLE under the slot lock, so a
round whose sum was positive can dispatch nothing (see Left out). The
caller (`myproc()`) is a slot index that must be RUNNING. Pointers become slot
indices: `parent` is `Option<nat>`, a sleep channel is `NoChan` (the null
pointer), `ProcChan(slot)` (the address of a slot, which `wait` sleeps on) or
`OtherChan(addr)` (any other kernel address). The memory manager and user-copy
calls whose code is not part of this model (`kalloc`, `proc_pagetable`,
`uvmcopy`, `mappages`, `copyout`) enter as boolean outcomes.

Files:

- `wrappers.dfy` (`Wrappers`): `Option`.
- `lfsr.dfy` (`Lfsr`): `rand`, its inverse, and facts about the sequence from the seed.
- `proc_table.dfy` (`ProcTable`): the records, the table invariant `Valid`
  (free slots cleared up to a kill mark, live pids issued by the counter and
  pairwise distinct),
  `allocpid`/`alloctid`, `allocproc`, `freeproc`, `wakeup`, `kill`, `get_sysinfo`.
- `lifecycle.dfy` (`Lifecycle`): `fork`, `clone`, `reparent`, `exit`, `wait`, `sleep`, `yield`.
- `scheduler.dfy` (`Scheduler`): the three selection rules and `set_sched_tickets`.
- `scenarios.dfy` (`Scenarios`): boot and `userinit`, and properties spanning
  several operations (a child's life from `fork` to `wait`, the sleep/wakeup
  round trip, `kill(0)` and the next allocation).

Points where the code behaves differently from what a reader might expect:

- The lottery divides by the ticket sum with no guard, so a CPU with nothing
  RUNNABLE computes `rand() % 0`. `Scheduler.LotteryStep` requires a non-zero
  sum; the guarded rule is `Scheduler.GuardedLotteryStep`.
- `freeproc` does not reset every field: tickets, stride, pass, ticks and the
  system-call counter persist while the slot is UNUSED, where no scan reads
  them; `allocproc` rewrites all five when it takes the slot again
  (`ProcTable.FreeProc`, `ProcTable.AllocAt`).
- `kill` matches free slots too, whose pid is 0, and the flag it sets carries
  into the slot's next use: the next process allocated there starts out
  killed, and only that process's own `freeproc` clears the mark. The invariant `ProcTable.Valid` therefore
  allows a kill mark on a free slot; `ProcTable.NoKilledFree` is the stronger
  property that the corrected kill keeps.
- `clone` allocates its slot before checking its arguments, so a refused call
  has a side effect (see Findings).

## Model

| member | source | states |
|---|---|---|
| Lfsr.Feedback | kernel/proc.c:470 | the feedback bit is a single bit |
| Lfsr.Rand | kernel/proc.c:468-472 | one draw shifts the old bits 1..15 into bits 0..14 and puts the XOR of taps 0, 2, 3, 5 in bit 15; a non-zero register never becomes zero |
| Lfsr.UnrandAfterRand | kernel/proc.c:468-472 | a draw loses no information: the previous register is recovered from the new one |
| Lfsr.RandAfterUnrand | kernel/proc.c:468-472 | every 16-bit value is the draw of some register |
| Lfsr.RandInjective | kernel/proc.c:468-472 | distinct registers give distinct draws, so the step permutes the 2^16 states |
| Lfsr.StateAfterNonZero | kernel/proc.c:465-472 | starting from the seed 0xACE1 the register is non-zero after any number of draws |
| Lfsr.FirstDraws | kernel/proc.c:465-472 | the first three draws from the seed are 0x5670, 0xAB38, 0x559C |
| ProcTable.FreeProc | kernel/proc.c:179-201 | the freed slot is UNUSED with pid, tid, parent, chan, killed, xstate, size and name cleared, while tickets, stride, pass, ticks and the system-call counter are kept |
| ProcTable.FreeProcIdempotent | kernel/proc.c:179-201 | freeing a freed slot changes nothing |
| ProcTable.FreeProcOfClean | kernel/proc.c:179-201 | freeing a slot that is already clean changes nothing |
| ProcTable.AllocPid | kernel/proc.c:97-107 | the pid handed out is the counter's value, the counter moves one past it, and nothing else in the kernel state changes |
| ProcTable.AllocTid | kernel/proc.c:109-120 | the tid handed out is the tid counter's value, that counter moves one past it, and nothing else changes |
| ProcTable.AllocPidFresh | kernel/proc.c:97-107 | on a table whose live pids came from the counter, the pid handed out is positive, above every live pid, and below the advanced counter |
| ProcTable.AllocTidFresh | kernel/proc.c:109-120 | likewise for tids: the tid handed out is positive, above every live tid, and below the advanced counter |
| ProcTable.AllocAt | kernel/proc.c:141-174 | once the scan stops at the lowest free slot: that slot gets state USED, the next pid, tickets 10000, stride 10, pass and ticks 0 and tid 0 or the next tid, and is freed again when memory fails; the counters advance; slots below have their system-call counters reset; slots above are untouched |
| ProcTable.AllocProc | kernel/proc.c:126-174 | a slot is returned exactly when memory succeeds and some slot is UNUSED; it is the lowest UNUSED slot; with no free slot the counters and every state are unchanged; every slot the scan visited has its system-call counter reset |
| ProcTable.LiveCount | kernel/proc.c:776-780 | the count of slots in use is at most the table size, is 0 exactly when every slot is UNUSED, and equals the size exactly when none is |
| ProcTable.GetSysinfo | kernel/proc.c:771-793 | request 0 answers the live count, at most the table size and 0 exactly on an empty table; request 1 answers the system-call total minus one, request 2 the free-page count; any other request answers -1 |
| ProcTable.LiveCountUpdate | kernel/proc.c:776-780 | replacing one slot changes the count by the change in that slot's use |
| ProcTable.LiveCountSameLiveness | kernel/proc.c:776-780 | the count depends only on which slots are in use |
| ProcTable.LiveCountOneSlot | kernel/proc.c:776-780 | tables that differ in use at one slot differ in count by that slot |
| ProcTable.AllocProcLiveCount | kernel/proc.c:126-174 | a successful allocation adds exactly one slot in use, a failed one none |
| ProcTable.AllocProcValid | kernel/proc.c:126-174 | allocation keeps the table invariant: free slots stay cleared, the new pid is fresh and distinct |
| ProcTable.WakeupFrom | kernel/proc.c:656-664 | the scan from slot i wakes exactly the slots at or after i, other than the caller, that sleep on the channel, and leaves all others unchanged |
| ProcTable.Wakeup | kernel/proc.c:651-665 | exactly the non-caller slots SLEEPING on the channel become RUNNABLE; every other slot is unchanged |
| ProcTable.WakeupLeavesOtherSleepers | kernel/proc.c:651-665 | a sleeper on another channel, or the caller itself, stays asleep |
| ProcTable.WakeupIdempotent | kernel/proc.c:651-665 | a second identical wakeup changes nothing |
| ProcTable.WakeupValid | kernel/proc.c:651-665 | wakeup keeps the table invariant |
| ProcTable.Kill | kernel/proc.c:670-689 | result 0 exactly when some slot's pid field equals pid, whatever its state; then the lowest such slot is marked killed and woken if SLEEPING and nothing else changes; otherwise -1 and no change |
| ProcTable.KillValid | kernel/proc.c:670-689 | kill of any pid, 0 included, keeps the table invariant: a free slot it hits stays UNUSED and cleared apart from its kill mark |
| ProcTable.KillLive | kernel/proc.c:670-689 | corrected kill: result 0 exactly when a slot in use has the pid; free slots never change |
| ProcTable.KillLiveValid | kernel/proc.c:670-689 | the corrected kill keeps the invariant for every pid, never puts a kill mark on a free slot, and answers -1 for pid 0 |
| Lifecycle.Fork | kernel/proc.c:308-354 | a pid is returned exactly when a slot is free and both memory steps succeed; it is the next pid and the child sits in the lowest free slot, RUNNABLE, with the caller as parent and the caller's size and name; on failure no slot changes state |
| Lifecycle.ForkLiveCount | kernel/proc.c:308-354 | a successful fork adds exactly one slot in use, a failed one none |
| Lifecycle.ForkValid | kernel/proc.c:308-354 | fork keeps the table invariant |
| Lifecycle.Clone | kernel/proc.c:849-900 | as written: a positive tid exactly when a slot is free, memory succeeds, the caller's tid is at most 20, the stack is non-null and the mapping succeeds; it is the next tid; 0 exactly when everything but the mapping succeeds, -1 on every other failure; on failure the lowest free slot holds the claimed USED record (with the caller's size after a failed mapping) or is freed again when memory failed, every other slot keeps all but its system-call counter, and both counters advance exactly when a slot was free |
| Lifecycle.CloneChecked | kernel/proc.c:849-900 | corrected clone: arguments are checked first; a refused or failed call changes no slot's state, and a refused one changes nothing |
| Lifecycle.RefusedCloneLeaksSlot | kernel/proc.c:855-858 | a clone refused for a null stack returns -1 yet leaves one more slot in use |
| Lifecycle.FailedMappingReturnsZero | kernel/proc.c:864-870 | a failed trap-frame mapping makes clone return 0, the value a new thread sees, not -1 |
| Lifecycle.CloneCheckedLiveCount | kernel/proc.c:849-900 | the corrected clone adds exactly one slot in use when it succeeds and none when it fails |
| Lifecycle.CloneLiveCount | kernel/proc.c:849-900 | clone as written adds one slot in use whenever the allocation succeeds, whatever it returns, and none otherwise |
| Lifecycle.ClonedIntoValid | kernel/proc.c:857-899 | a successful clone keeps the table invariant: the thread's pid and tid are fresh and no other slot's identity changes |
| Lifecycle.CloneValid | kernel/proc.c:849-900 | clone as written keeps the table invariant on every path, the leaked slots included |
| Lifecycle.CloneCheckedValid | kernel/proc.c:849-900 | the corrected clone keeps the table invariant on every path |
| Lifecycle.ReparentStep | kernel/proc.c:364-367 | one child moves to init and init's sleepers wake; none is left asleep on init |
| Lifecycle.ReparentFrom | kernel/proc.c:363-368 | the loop from slot i gives every later child of p the parent init, and wakes init's sleepers if there was such a child |
| Lifecycle.Reparent | kernel/proc.c:358-369 | every child of p gets init as parent; init's sleepers wake exactly when p had a child; nothing else changes |
| Lifecycle.ExitWakeups | kernel/proc.c:396-402 | after reparenting and waking the parent only parent links and the woken sleepers' states differ |
| Lifecycle.Exit | kernel/proc.c:374-414 | init cannot exit; otherwise the caller becomes ZOMBIE with the status and keeps every other field of its record (pid, tid, kill mark, channel, size and name included), no slot keeps it as parent, and exactly the sleepers in init's or the parent's wait are woken |
| Lifecycle.ExitValid | kernel/proc.c:374-414 | exit keeps the table invariant |
| Lifecycle.Sleep | kernel/proc.c:636-637 | the caller records the channel and becomes SLEEPING; no other slot changes |
| Lifecycle.SleepResume | kernel/proc.c:642 | on return from sleep the channel is cleared and nothing else changes |
| Lifecycle.Yield | kernel/proc.c:587-595 | the caller becomes RUNNABLE and nothing else changes |
| Lifecycle.Wait | kernel/proc.c:418-463 | it reaps exactly when there is a zombie child and the status copy succeeds or is not wanted, returning the lowest zombie child's pid and status and freeing that slot; -1 with no change when the copy fails, when there are no children, or when the caller is killed; otherwise the caller sleeps on its own slot |
| Lifecycle.WaitLiveCount | kernel/proc.c:418-463 | reaping frees exactly one slot |
| Lifecycle.WaitValid | kernel/proc.c:418-463 | wait keeps the table invariant |
| Scheduler.Dispatch | kernel/proc.c:543-545 | the chosen slot becomes RUNNING and nothing else changes |
| Scheduler.RoundRobinPick | kernel/proc.c:539-542 | the next slot dispatched is the first RUNNABLE slot at or after the sweep position; none when there is none |
| Scheduler.RoundRobinStep | kernel/proc.c:538-554 | one dispatch of the sweep picks the first RUNNABLE slot at or after the sweep position, or none exactly when there is none; the pick becomes RUNNING and no other slot changes; with no pick nothing changes |
| Scheduler.YieldingSweep | kernel/proc.c:538-554 | when each dispatched process yields, one sweep dispatches every RUNNABLE slot exactly once, in slot order |
| Scheduler.TicketsBounded | kernel/proc.c:494-497 | while every RUNNABLE ticket count is at most 10000, the partial sum over n slots is at most 10000 times n |
| Scheduler.TicketSum | kernel/proc.c:494-497 | with counts at most 10000 the whole `sum_tickets` is at most 10000 times the table size, 640000 for 64 slots |
| Scheduler.NoRunnableNoTickets | kernel/proc.c:494-497 | with nothing RUNNABLE every partial ticket sum is 0 |
| Scheduler.PositiveTickets | kernel/proc.c:494-497 | when RUNNABLE slots hold tickets, the sum is positive once one is counted |
| Scheduler.TicketsNonNegative | kernel/proc.c:494-497 | with non-negative tickets every partial sum is non-negative |
| Scheduler.LotteryScan | kernel/proc.c:499-516 | the scan from slot i returns the first RUNNABLE slot whose running ticket total exceeds the draw, or none when no total does |
| Scheduler.LotteryPick | kernel/proc.c:499-516 | the pick is the lottery winner for the draw |
| Scheduler.TotalBelowDraw | kernel/proc.c:499-516 | if no RUNNABLE slot lifts the running total past the draw, the total never exceeds it |
| Scheduler.LotteryPickExists | kernel/proc.c:498-516 | every draw in [0, sum) has a winner |
| Scheduler.LotteryWinnerUnique | kernel/proc.c:499-516 | the winner of a draw is unique |
| Scheduler.Draw | kernel/proc.c:498 | the draw lies in [0, abs(sum)) |
| Scheduler.RunCounted | kernel/proc.c:506-507 | the winner becomes RUNNING with one more tick; nothing else changes |
| Scheduler.LotteryStep | kernel/proc.c:493-516 | the generator advances once; with a positive sum exactly one slot, the draw's winner, becomes RUNNING with one more tick and no other slot changes |
| Scheduler.IdleTableDividesByZero | kernel/proc.c:494-498 | a table with nothing RUNNABLE has ticket sum 0, the divisor of the draw |
| Scheduler.TicketSumZeroFacts | kernel/proc.c:494-497 | the sum is 0 with nothing RUNNABLE and positive when RUNNABLE slots hold tickets and one exists |
| Scheduler.GuardedLotteryStep | kernel/proc.c:493-516 | corrected lottery: with a zero sum nothing changes; when RUNNABLE slots hold tickets a winner is picked exactly when some slot is RUNNABLE |
| Scheduler.StrideScan | kernel/proc.c:517-525 | the scan returns the RUNNABLE slot with the smallest pass below INT_MAX, the earliest on ties, or none when every RUNNABLE pass is at least INT_MAX |
| Scheduler.StridePick | kernel/proc.c:517-525 | the pick is the stride choice of the table |
| Scheduler.StrideStep | kernel/proc.c:517-536 | nothing is picked exactly when no RUNNABLE slot has a pass below INT_MAX; otherwise the pick becomes RUNNING, its pass grows by its stride and its ticks by one, and no other slot changes |
| Scheduler.StrideChoiceUnique | kernel/proc.c:517-525 | at most one slot is the stride choice |
| Scheduler.StrideStepDrift | kernel/proc.c:527-530 | a step keeps every slot's pass minus stride times ticks |
| Scheduler.StrideRound | kernel/proc.c:517-536 | one stride round followed by the pick's yield: with no pick nothing changes; otherwise the pick is RUNNABLE again with pass grown by its stride and one more tick, and no other slot changes |
| Scheduler.StrideRounds | kernel/proc.c:517-536 | any number of rounds keeps every slot's state, tickets and stride, and never lowers its ticks |
| Scheduler.StrideRoundsDrift | kernel/proc.c:517-536 | over any number of rounds every slot's pass grows by exactly its stride per tick granted, so a fresh slot has pass N times stride after N selections |
| Scheduler.CDiv | kernel/proc.c:843 | C's truncating quotient: its magnitude is the number of whole multiples of the divisor's magnitude that fit in the dividend's, its sign the product of the signs |
| Scheduler.SetSchedTickets | kernel/proc.c:831-847 | above 10000 nothing changes; otherwise tickets become t, pass equals the new stride, the stride is the quotient of 10000 by t (for positive t), a negative t gives a stride of at most 0, and no other field or slot changes |
| Scheduler.StrideAntitone | kernel/proc.c:843 | more tickets never give a larger stride |
| Scheduler.NegativeTicketsAccepted | kernel/proc.c:835-844 | t = -1 is accepted and gives stride -10000 |
| Scheduler.NegativeStrideMonopolises | kernel/proc.c:517-536 | a stride choice with a negative stride is chosen again in the next round |
| Scheduler.SetSchedTicketsChecked | kernel/proc.c:831-847 | corrected set_sched_tickets: counts outside [1, 10000] change nothing, accepted ones get a stride of at least 1 |
| Scenarios.Boot | kernel/proc.c:11-16 | the table before userinit satisfies the invariant, has no kill mark on a free slot, and holds no process |
| Scenarios.UserInit | kernel/proc.c:261-284 | init is the lowest free slot, RUNNABLE, with the next pid, one page, name "initcode" and default scheduling fields |
| Scenarios.UserInitOnEmpty | kernel/proc.c:261-284 | on an empty valid table, wherever its init pointer stood, init lands in slot 0 without a parent, the invariant holds and one slot is in use |
| Scenarios.FirstProcess | kernel/proc.c:261-284 | after boot init is slot 0 with pid 1 |
| Scenarios.YieldUndoesDispatch | kernel/proc.c:587-595 | dispatching a slot and yielding straight back restores the table |
| Scenarios.SleepWakeupRoundTrip | kernel/proc.c:620-665 | sleep, wakeup on the same channel, dispatch and return from sleep give back the process with its channel cleared; the wakeup touches only the channel's sleepers |
| Scenarios.KillZeroPoisonsNextProcess | kernel/proc.c:670-689 | on a valid table with a free slot kill(0) answers 0, keeps the invariant but leaves a killed free slot, and the next allocated process, in the lowest free slot, is already killed |
| Scenarios.KillLiveZeroHarmless | kernel/proc.c:670-689 | on a valid table without kill marks on free slots the corrected kill(0) changes nothing and the next process starts unkilled |
| Scenarios.ForkIntoLowestFree | kernel/proc.c:308-354 | a successful fork places its child in the lowest free slot, which is neither the caller nor init |
| Scenarios.DispatchChild | kernel/proc.c:538-554 | the dispatched child runs beside its parent, keeps the parent link and pid, and no zombie child appears |
| Scenarios.ExitOfChild | kernel/proc.c:374-414 | a running child exits into a zombie child of its running parent with the status, creating no other zombie child and freeing no slot |
| Scenarios.ChildExits | kernel/proc.c:308-414 | after fork, dispatch and exit the child is the parent's only zombie child and one more slot is in use |
| Scenarios.ForkExitWait | kernel/proc.c:308-463 | fork, child exit, parent wait: the wait returns the pid fork returned and the exit status, and the live count is back where it started |

## Left out

- Locks (`acquire`/`release`, `pid_lock`, `tid_lock`, `wait_lock`) and the lock hand-off in `sleep`: each operation is one atomic step.
- Scheduler.StrideStep: models the scan and the dispatch as one atomic step on one CPU, so it cannot show the race in the source. The scan of kernel/proc.c:520-526 reads `state` and `pass` without any lock, and after `acquire(&last_proc->lock)` at 528 the pick is set RUNNING at 529 without checking again that it is RUNNABLE. Two CPUs can therefore dispatch the same slot, and a CPU can dispatch a process that went to sleep, or exited, after the scan.
- Scenarios.UserInit: requires a free slot and takes `allocproc`'s memory outcome as success. The source does not check the result of `allocproc`; when it fails, `userinit` goes on to use the null pointer it got back, which the model does not represent.
- Lifecycle.Clone: does not model the slot lock it leaves held. `allocproc` returns the slot with its lock held, and neither the `return -1` after a refused argument nor the `return 0` after a failed mapping releases it, so in the source every later `acquire` of that slot's lock (the allocation scan, `wakeup`, `kill`, the round-robin scheduler) blocks or panics, and the calling CPU returns to user space with a lock held, so its next `yield` reaches the "sched locks" panic of kernel/proc.c:574-575. The model records the leaked USED slot, and its later operations proceed past that slot.
- Context switching and per-CPU state (`swtch`, `sched` and its panics, `forkret`, `cpuid`, `mycpu`, `myproc`, `intr_on`): running a process is the abstract step `Scheduler.Dispatch`; the caller is a slot index.
- Page tables and memory (`proc_mapstacks`, `proc_pagetable`, `proc_freepagetable`, `growproc`, `uvmcopy`, `mappages`, `uvmunmap`, `uvmfree`, trap-frame copies): their outcomes are boolean parameters. In particular the model does not see that a failed mapping in `clone` frees the page table the thread shares with its parent.
- File references (`filedup`, `fileclose`, `idup`, `iput`, `begin_op`/`end_op`) in `fork`, `clone` and `exit`.
- User-memory copies and external counters (`copyout`, `either_copyout`/`either_copyin`, `update_procinfo`): the `wait` status copy is a boolean outcome; `get_sysinfo(1)` and `get_sysinfo(2)` take the system-call total and the free-page count as parameters.
- `procdump`, `print_sched_statistics` and the message `set_sched_tickets` prints: console output only.
- `user/thread.c`: a test-and-set user spin lock and a `malloc` wrapper around the `clone` system call.
- The `initcode` bytes and `namei("/")` in `userinit`.
- Lifecycle.Fork: requires `nextpid >= 1` (true of every reachable state, as the invariant shows), so that its pid result is never confused with the failure value -1.
- Lifecycle.Clone: requires `nexttid >= 1` for the same reason; likewise Lifecycle.CloneChecked.
- Scheduler.LotteryStep: requires a non-zero ticket sum because the source divides by it unguarded (see Findings). It also models one CPU only: the sum loop of kernel/proc.c:494-497 reads `state` and `tickets` without any lock, and `rand` (465-472) updates the shared `lfsr` and `bit` without one, while the pick loop re-checks RUNNABLE under each slot's lock. On several CPUs a round whose sum was positive can therefore dispatch nothing, because another CPU took the slot between the two loops, and concurrent draws can interleave on the shared register. Its promise that a positive sum dispatches exactly one slot is a one-CPU fact.
- Scheduler.SetSchedTickets: requires t other than 0, where the source divides by zero.
- Integer widths: pid, tid, pass, ticks and the lottery's `sum_tickets` and `tickets_pointer` are unbounded here. The 32-bit overflow of `nextpid`, `pass` and `ticks` after very long runs is not modelled, nor that of the two ticket sums, which can wrap once negative ticket counts are accepted (see the `set_sched_tickets` finding); with counts within [1, 10000] they stay at most 640000 (`Scheduler.TicketSum`). The stride rule's comparison against `__INT_MAX__` is modelled.
- Scheduling statistics over time (the lottery's and stride's long-run proportions) and the LFSR's period are not stated; only single steps and the pass-per-tick invariant are.

## Findings

| source | as written | input that shows it | evidently intended | confidence | as-written member | corrected member |
|---|---|---|---|---|---|---|
| kernel/proc.c:670-689 | `kill` matches on the pid field of every slot, and `freeproc` sets a free slot's pid to 0 | `kill(0)` on a valid table with a free slot answers 0, and the next `allocproc` hands out that slot with `killed` set (`Scenarios.KillZeroPoisonsNextProcess`) | only slots in use can be killed; `kill(0)` answers -1 | not executed | ProcTable.Kill | ProcTable.KillLive |
| kernel/proc.c:855-858 | `clone` calls `allocproc` before checking the caller's tid and the stack, and returns -1 without freeing the slot and with that slot's lock still held, so every later acquire of that lock blocks or panics | `clone(0)` with a free slot answers -1 and leaves one more slot USED (`Lifecycle.RefusedCloneLeaksSlot`) | refuse invalid arguments before allocating, with no side effect | not executed | Lifecycle.Clone | Lifecycle.CloneChecked |
| kernel/proc.c:864-870 | a failed trap-frame mapping returns 0, leaves the slot USED with its lock still held, and frees the page table it shares with the caller | a mapping failure makes `clone` answer 0, the value a new thread sees (`Lifecycle.FailedMappingReturnsZero`) | free the slot and answer -1 | not executed | Lifecycle.Clone | Lifecycle.CloneChecked |
| kernel/proc.c:494-498 | the lottery computes `rand() % sum_tickets` with no guard | any table with nothing RUNNABLE has ticket sum 0 (`Scheduler.IdleTableDividesByZero`), so an idle CPU divides by zero | skip the draw when the sum is 0 | not executed | Scheduler.LotteryStep | Scheduler.GuardedLotteryStep |
| kernel/proc.c:831-847 | `set_sched_tickets` rejects only counts above 10000 | t = -1 gives stride -10000 (`Scheduler.NegativeTicketsAccepted`), and a slot with a negative stride is the stride choice in every later round (`Scheduler.NegativeStrideMonopolises`); t = 0 divides by zero | reject counts below 1 | not executed | Scheduler.SetSchedTickets | Scheduler.SetSchedTicketsChecked |

=== FILE: lfsr.dfy ===
/**
 The lottery scheduler's random source (`rand` in kernel/proc.c): a 16-bit
 Fibonacci linear-feedback shift register with taps at bits 0, 2, 3 and 5,
 seeded with 0xACE1. The C code evaluates the expression on operands
 promoted to `int`; since `lfsr >> 1` is below 2^15 and the feedback bit is
 shifted to bit 15, the value always fits the `unsigned short` register, so
 computing directly in `bv16` loses nothing.
 */
module Lfsr {

  /** Initial register value (`lfsr = 0xACE1u`). */
  const Seed: bv16 := 0xACE1

  /** The feedback bit: bits 0, 2, 3 and 5 of the register XORed together. */
  function Feedback(s: bv16): (b: bv16)
    ensures b <= 1
  {
    ((s >> 0) ^ (s >> 2) ^ (s >> 3) ^ (s >> 5)) & 1
  }

  /** One draw: the register's new value, which `rand` also returns.
      Bits 0..14 are the old bits 1..15, bit 15 is the feedback bit, and a
      non-zero register never becomes zero (the generator never gets stuck). */
  function Rand(s: bv16): (r: bv16)
    ensures r & 0x7FFF == s >> 1
    ensures r >> 15 == Feedback(s)
    ensures s != 0 ==> r != 0
  {
    (s >> 1) | (Feedback(s) << 15)
  }

  /** The register one step back: the old bits 1..15 are the new bits 0..14,
      and the old bit 0 is recovered by XORing the feedback bit (new bit 15)
      with the other three taps (new bits 1, 2 and 4). */
  function Unrand(r: bv16): (s: bv16)
    ensures s >> 1 == r & 0x7FFF
  {
    var low := ((r >> 15) ^ (r >> 1) ^ (r >> 2) ^ (r >> 4)) & 1;
    (r << 1) | low
  }

  /** Unrand undoes a draw ... */
  lemma UnrandAfterRand(s: bv16)
    ensures Unrand(Rand(s)) == s
  {
  }

  /** ... and every register value is the draw of exactly one predecessor. */
  lemma RandAfterUnrand(r: bv16)
    ensures Rand(Unrand(r)) == r
  {
  }

  /** Distinct registers give distinct draws: the step is a permutation of the 2^16 states. */
  lemma RandInjective(a: bv16, b: bv16)
    requires Rand(a) == Rand(b)
    ensures a == b
  {
    UnrandAfterRand(a);
    UnrandAfterRand(b);
  }

  /** The register after n draws from the seed. */
  function StateAfter(n: nat): (s: bv16)
    ensures n > 0 ==> Unrand(s) == StateAfter(n - 1)
  {
    if n == 0 then Seed else Rand(StateAfter(n - 1))
  }

  /** Starting from the non-zero seed, the register is never zero. */
  lemma {:induction false} StateAfterNonZero(n: nat)
    ensures StateAfter(n) != 0
  {
    if n > 0 {
      StateAfterNonZero(n - 1);
    }
  }

  /** The sequence is fixed by the seed: the first three draws. */
  lemma FirstDraws()
    ensures StateAfter(1) == 0x5670
    ensures StateAfter(2) == 0xAB38
    ensures StateAfter(3) == 0x559C
  {
  }
}

=== FILE: lifecycle.dfy ===
/**
 The process-control operations of kernel/proc.c, each as one atomic step on
 the table: `fork`, `clone`, `reparent`, `exit`, `wait`, `yield` and the
 state changes of `sleep`.

 The caller (`myproc()`) is the slot `cur`, which is RUNNING on this CPU.
 Results of the memory manager and of user-memory copies that these
 operations depend on (`kalloc`, `proc_pagetable`, `uvmcopy`, `mappages`,
 `copyout`) enter as booleans. The hand-off to the scheduler (`sched`) is
 left abstract: an operation ends with the caller's new state.
 */
module Lifecycle {
  import opened Wrappers
  import opened ProcTable

  /** `clone` refuses callers whose own tid exceeds this. */
  const MAX_THREAD_TID: int := 20

  /** Slot cur is the process running on this CPU. */
  predicate IsCurrent(k: Kernel, cur: nat) {
    cur < |k.procs| && k.procs[cur].state == Running
  }

  datatype Created = Created(k: Kernel, ret: int)

  // ---------------------------------------------------------------------------
  // fork
  // ---------------------------------------------------------------------------

  /** The slot `fork` hands to the child, once it is made RUNNABLE. */
  function Child(claimed: Proc, parent: Proc, cur: nat): (c: Proc)
    ensures c.state == Runnable && c.parent == Some(cur) && c.sz == parent.sz && c.name == parent.name
    ensures c.(state := claimed.state, parent := claimed.parent, sz := claimed.sz, name := claimed.name) == claimed
  {
    claimed.(sz := parent.sz, name := parent.name, parent := Some(cur), state := Runnable)
  }

  /** k' is k after a successful fork by cur into slot i: i was the lowest free
      slot and now holds a RUNNABLE child of cur with a fresh pid, tid 0, the
      default scheduling fields and the caller's size and name; other slots
      differ at most in their system-call counters. */
  ghost predicate ForkedInto(k: Kernel, cur: nat, i: nat, k': Kernel) {
    && |k'.procs| == |k.procs|
    && cur < |k.procs|
    && LowestFree(k.procs, i)
    && k'.procs[i] == Child(Claim(k.procs[i], k.nextpid, 0), k.procs[cur], cur)
    && k'.(procs := k.procs, nextpid := k.nextpid) == k
    && k'.nextpid == k.nextpid + 1
    && (forall j :: 0 <= j < |k.procs| && j != i ==> EqualButSyscalls(k'.procs[j], k.procs[j]))
  }

  /** `fork()`: allocate a process slot, copy the caller's memory (copyOk is
      the outcome of `uvmcopy`), and make the child RUNNABLE with cur as
      parent. Returns the child's pid, or -1 with no slot changing state. */
  function Fork(k: Kernel, cur: nat, memOk: bool, copyOk: bool): (r: Created)
    requires IsCurrent(k, cur) && 1 <= k.nextpid
    ensures |r.k.procs| == |k.procs|
    ensures r.ret != -1 <==> HasFree(k.procs) && memOk && copyOk
    ensures r.ret != -1 ==> r.ret == k.nextpid && exists i: nat :: ForkedInto(k, cur, i, r.k)
    ensures r.ret == -1 ==> forall j :: 0 <= j < |k.procs| ==> r.k.procs[j].state == k.procs[j].state
  {
    var a := AllocProc(k, false, memOk);
    match a.slot
    case None => Created(a.k, -1)
    case Some(i) =>
      if !copyOk then
        Created(a.k.(procs := a.k.procs[i := FreeProc(a.k.procs[i])]), -1)
      else
        var np := Child(a.k.procs[i], a.k.procs[cur], cur);
        assert a.k.procs[cur].sz == k.procs[cur].sz && a.k.procs[cur].name == k.procs[cur].name;
        assert ForkedInto(k, cur, i, a.k.(procs := a.k.procs[i := np]));
        Created(a.k.(procs := a.k.procs[i := np]), np.pid)
  }

  /** A successful fork adds exactly one live slot; a failed one adds none. */
  lemma ForkLiveCount(k: Kernel, cur: nat, memOk: bool, copyOk: bool)
    requires IsCurrent(k, cur) && 1 <= k.nextpid
    ensures var r := Fork(k, cur, memOk, copyOk);
      LiveCount(r.k.procs) == LiveCount(k.procs) + (if r.ret == -1 then 0 else 1)
  {
    var r := Fork(k, cur, memOk, copyOk);
    if r.ret == -1 {
      assert forall j :: 0 <= j < |k.procs| ==> Live(r.k.procs[j]) == Live(k.procs[j]);
      LiveCountSameLiveness(r.k.procs, k.procs);
    } else {
      var i: nat :| ForkedInto(k, cur, i, r.k);
      LiveCountOneSlot(k.procs, r.k.procs, i);
    }
  }

  /** Fork keeps the table invariant. */
  lemma ForkValid(k: Kernel, cur: nat, memOk: bool, copyOk: bool)
    requires Valid(k) && IsCurrent(k, cur)
    ensures Valid(Fork(k, cur, memOk, copyOk).k)
  {
    AllocProcValid(k, false, memOk);
    var a := AllocProc(k, false, memOk);
    var r := Fork(k, cur, memOk, copyOk);
    if a.slot.Some? {
      var i := a.slot.value;
      forall j | 0 <= j < |k.procs| && j != i
        ensures SameIdentity(r.k.procs[j], a.k.procs[j])
      {
        assert EqualButSyscalls(r.k.procs[j], k.procs[j]) && EqualButSyscalls(a.k.procs[j], k.procs[j]);
      }
      ValidAfterOneSlot(a.k, r.k, i);
    }
  }

  // ---------------------------------------------------------------------------
  // clone
  // ---------------------------------------------------------------------------

  /** k' is k after a thread of cur was created in slot i: i was the lowest
      free slot and holds a RUNNABLE thread with fresh pid and tid, sharing
      the caller's size; other slots differ at most in system-call counters. */
  ghost predicate ClonedInto(k: Kernel, cur: nat, i: nat, k': Kernel) {
    && |k'.procs| == |k.procs|
    && cur < |k.procs|
    && LowestFree(k.procs, i)
    && k'.procs[i] == Child(Claim(k.procs[i], k.nextpid, k.nexttid), k.procs[cur], cur)
    && k'.(procs := k.procs, nextpid := k.nextpid, nexttid := k.nexttid) == k
    && k'.nextpid == k.nextpid + 1
    && k'.nexttid == k.nexttid + 1
    && (forall j :: 0 <= j < |k.procs| && j != i ==> EqualButSyscalls(k'.procs[j], k.procs[j]))
  }

  /** `clone(stack)` as written. stack is the user stack address (0 for
      null); memOk is the outcome of `allocproc`'s memory allocation and mapOk
      that of mapping the thread's trap frame. The slot is allocated BEFORE the
      tid and stack checks, so a refused call leaves a USED slot behind; a
      failed mapping also leaves the slot USED and returns 0. On success the
      result is the new thread's tid. */
  function Clone(k: Kernel, cur: nat, stack: nat, memOk: bool, mapOk: bool): (r: Created)
    requires IsCurrent(k, cur) && 1 <= k.nexttid
    ensures |r.k.procs| == |k.procs|
    ensures r.ret > 0 <==>
      HasFree(k.procs) && memOk && k.procs[cur].tid <= MAX_THREAD_TID && stack != 0 && mapOk
    ensures r.ret > 0 ==> r.ret == k.nexttid && exists i: nat :: ClonedInto(k, cur, i, r.k)
    ensures r.ret <= 0 ==> r.ret == -1 || r.ret == 0
    ensures r.ret == 0 <==>
      HasFree(k.procs) && memOk && k.procs[cur].tid <= MAX_THREAD_TID && stack != 0 && !mapOk
    ensures r.k.lfsr == k.lfsr && r.k.initproc == k.initproc
    ensures HasFree(k.procs) ==> r.k.nextpid == k.nextpid + 1 && r.k.nexttid == k.nexttid + 1
    ensures !HasFree(k.procs) ==> r.k.nextpid == k.nextpid && r.k.nexttid == k.nexttid
    ensures r.ret <= 0 ==> forall j :: 0 <= j < |k.procs| && !LowestFree(k.procs, j) ==>
      EqualButSyscalls(r.k.procs[j], k.procs[j])
    ensures r.ret <= 0 && memOk ==> forall i :: 0 <= i < |k.procs| && LowestFree(k.procs, i) ==>
      r.k.procs[i] == Claim(k.procs[i], k.nextpid, k.nexttid).(sz := if r.ret == 0 then k.procs[cur].sz else k.procs[i].sz)
    ensures r.ret <= 0 && !memOk ==> forall i :: 0 <= i < |k.procs| && LowestFree(k.procs, i) ==>
      r.k.procs[i] == FreeProc(Claim(k.procs[i], k.nextpid, k.nexttid))
  {
    var a := AllocProc(k, true, memOk);
    match a.slot
    case None => Created(a.k, -1)
    case Some(i) =>
      assert forall j :: 0 <= j < |k.procs| && LowestFree(k.procs, j) ==> j == i;
      if k.procs[cur].tid > MAX_THREAD_TID || stack == 0 then Created(a.k, -1)
      else
        var np := a.k.procs[i].(sz := k.procs[cur].sz);
        if !mapOk then Created(a.k.(procs := a.k.procs[i := np]), 0)
        else
          var th := Child(a.k.procs[i], a.k.procs[cur], cur);
          assert a.k.procs[cur].sz == k.procs[cur].sz && a.k.procs[cur].name == k.procs[cur].name;
          assert ClonedInto(k, cur, i, a.k.(procs := a.k.procs[i := th]));
          Created(a.k.(procs := a.k.procs[i := th]), th.tid)
  }

  /** `clone` with the checks moved before the allocation and a failed mapping
      undone, as the source evidently intends: every failure returns -1 and
      leaves no slot changed in state. */
  function CloneChecked(k: Kernel, cur: nat, stack: nat, memOk: bool, mapOk: bool): (r: Created)
    requires IsCurrent(k, cur) && 1 <= k.nexttid
    ensures |r.k.procs| == |k.procs|
    ensures r.ret != -1 <==>
      HasFree(k.procs) && memOk && k.procs[cur].tid <= MAX_THREAD_TID && stack != 0 && mapOk
    ensures r.ret != -1 ==> r.ret == k.nexttid && exists i: nat :: ClonedInto(k, cur, i, r.k)
    ensures r.ret == -1 ==> forall j :: 0 <= j < |k.procs| ==> r.k.procs[j].state == k.procs[j].state
    ensures r.ret == -1 && (k.procs[cur].tid > MAX_THREAD_TID || stack == 0) ==> r.k == k
  {
    if k.procs[cur].tid > MAX_THREAD_TID || stack == 0 then Created(k, -1)
    else
      var a := AllocProc(k, true, memOk);
      match a.slot
      case None => Created(a.k, -1)
      case Some(i) =>
        if !mapOk then Created(a.k.(procs := a.k.procs[i := FreeProc(a.k.procs[i])]), -1)
        else
          var th := Child(a.k.procs[i], a.k.procs[cur], cur);
          assert a.k.procs[cur].sz == k.procs[cur].sz && a.k.procs[cur].name == k.procs[cur].name;
          assert ClonedInto(k, cur, i, a.k.(procs := a.k.procs[i := th]));
          Created(a.k.(procs := a.k.procs[i := th]), th.tid)
  }

  /** The as-written clone leaks: a call refused for a null stack (or an
      exhausted tid ceiling) reports -1 yet leaves one more live slot, USED,
      that no operation ever makes RUNNABLE or frees. */
  lemma RefusedCloneLeaksSlot(k: Kernel, cur: nat)
    requires IsCurrent(k, cur) && 1 <= k.nexttid && HasFree(k.procs)
    ensures Clone(k, cur, 0, true, true).ret == -1
    ensures LiveCount(Clone(k, cur, 0, true, true).k.procs) == LiveCount(k.procs) + 1
  {
    AllocProcLiveCount(k, true, true);
  }

  /** The as-written clone reports 0 when mapping the trap frame fails; to
      `thread_create` in user/thread.c a 0 means "I am the new thread". */
  lemma FailedMappingReturnsZero(k: Kernel, cur: nat, stack: nat)
    requires IsCurrent(k, cur) && 1 <= k.nexttid && HasFree(k.procs)
    requires k.procs[cur].tid <= MAX_THREAD_TID && stack != 0
    ensures Clone(k, cur, stack, true, false).ret == 0
  {
  }

  /** The corrected clone adds exactly one live slot when it succeeds and
      none when it fails. */
  lemma CloneCheckedLiveCount(k: Kernel, cur: nat, stack: nat, memOk: bool, mapOk: bool)
    requires IsCurrent(k, cur) && 1 <= k.nexttid
    ensures var r := CloneChecked(k, cur, stack, memOk, mapOk);
      LiveCount(r.k.procs) == LiveCount(k.procs) + (if r.ret == -1 then 0 else 1)
  {
    var r := CloneChecked(k, cur, stack, memOk, mapOk);
    if r.ret == -1 {
      LiveCountSameLiveness(r.k.procs, k.procs);
    } else {
      var i: nat :| ClonedInto(k, cur, i, r.k);
      LiveCountOneSlot(k.procs, r.k.procs, i);
    }
  }

  /** The as-written clone adds one live slot whenever the allocation
      succeeds, whatever it then returns, and none otherwise. */
  lemma CloneLiveCount(k: Kernel, cur: nat, stack: nat, memOk: bool, mapOk: bool)
    requires IsCurrent(k, cur) && 1 <= k.nexttid
    ensures var r := Clone(k, cur, stack, memOk, mapOk);
      LiveCount(r.k.procs) == LiveCount(k.procs) + (if HasFree(k.procs) && memOk then 1 else 0)
  {
    var r := Clone(k, cur, stack, memOk, mapOk);
    if HasFree(k.procs) {
      var w := LowestFreeExists(k.procs);
      forall j | 0 <= j < |k.procs| && j != w
        ensures Live(r.k.procs[j]) == Live(k.procs[j])
      {
        assert EqualButSyscalls(r.k.procs[j], k.procs[j]) || r.ret > 0;
      }
      LiveCountOneSlot(k.procs, r.k.procs, w);
    } else {
      assert forall j :: 0 <= j < |k.procs| ==> EqualButSyscalls(r.k.procs[j], k.procs[j]);
      assert forall j :: 0 <= j < |k.procs| ==> Live(r.k.procs[j]) == Live(k.procs[j]);
      LiveCountSameLiveness(r.k.procs, k.procs);
    }
  }

  /** A table that `ClonedInto` describes keeps the invariant: the thread's
      slot gets a fresh pid and tid, every other slot keeps its identity. */
  lemma ClonedIntoValid(k: Kernel, cur: nat, i: nat, k': Kernel)
    requires Valid(k) && ClonedInto(k, cur, i, k')
    ensures Valid(k')
  {
    AllocPidFresh(k);
    forall j | 0 <= j < |k.procs| && j != i
      ensures SameIdentity(k'.procs[j], k.procs[j])
    {
      assert EqualButSyscalls(k'.procs[j], k.procs[j]);
    }
    ValidAfterOneSlot(k, k', i);
  }

  /** Clone as written keeps the table invariant on every path: the slot it
      leaks on refusal or a failed mapping is USED with fresh ids. */
  lemma CloneValid(k: Kernel, cur: nat, stack: nat, memOk: bool, mapOk: bool)
    requires Valid(k) && IsCurrent(k, cur)
    ensures Valid(Clone(k, cur, stack, memOk, mapOk).k)
  {
    var r := Clone(k, cur, stack, memOk, mapOk);
    if r.ret > 0 {
      var i: nat :| ClonedInto(k, cur, i, r.k);
      ClonedIntoValid(k, cur, i, r.k);
    } else if HasFree(k.procs) {
      var w := LowestFreeExists(k.procs);
      AllocPidFresh(k);
      AllocTidFresh(k);
      forall j | 0 <= j < |k.procs| && j != w
        ensures SameIdentity(r.k.procs[j], k.procs[j])
      {
        assert EqualButSyscalls(r.k.procs[j], k.procs[j]);
      }
      ValidAfterOneSlot(k, r.k, w);
    } else {
      forall j | 0 <= j < |k.procs|
        ensures SameIdentity(r.k.procs[j], k.procs[j])
      {
        assert EqualButSyscalls(r.k.procs[j], k.procs[j]);
      }
    }
  }

  /** Freeing one slot of a valid table again keeps it valid. */
  lemma FreeAgainValid(k: Kernel, i: nat)
    requires Valid(k) && i < |k.procs|
    ensures Valid(k.(procs := k.procs[i := FreeProc(k.procs[i])]))
  {
    ValidAfterOneSlot(k, k.(procs := k.procs[i := FreeProc(k.procs[i])]), i);
  }

  /** The corrected clone keeps the table invariant on every path. */
  lemma CloneCheckedValid(k: Kernel, cur: nat, stack: nat, memOk: bool, mapOk: bool)
    requires Valid(k) && IsCurrent(k, cur)
    ensures Valid(CloneChecked(k, cur, stack, memOk, mapOk).k)
  {
    var r := CloneChecked(k, cur, stack, memOk, mapOk);
    if k.procs[cur].tid > MAX_THREAD_TID || stack == 0 {
      assert r.k == k;
    } else {
      AllocProcValid(k, true, memOk);
      var a := AllocProc(k, true, memOk);
      if a.slot.None? {
        assert r.k == a.k;
      } else if !mapOk {
        var i := a.slot.value;
        FreeAgainValid(a.k, i);
        assert r.k == a.k.(procs := a.k.procs[i := FreeProc(a.k.procs[i])]);
      } else {
        var i: nat :| ClonedInto(k, cur, i, r.k);
        ClonedIntoValid(k, cur, i, r.k);
      }
    }
  }

  // ---------------------------------------------------------------------------
  // reparent
  // ---------------------------------------------------------------------------

  /** Some slot at index i or above has p as parent. */
  predicate ChildFrom(t: seq<Proc>, p: nat, i: nat) {
    exists j :: i <= j < |t| && t[j].parent == Some(p)
  }

  /** One hit of the `reparent` loop: child i of p gets init as parent, and
      `wakeup(initproc)` issued by p wakes init's sleepers, after which none
      is left. */
  function ReparentStep(t: seq<Proc>, p: nat, init: nat, i: nat): (r: seq<Proc>)
    requires i < |t| && t[i].parent == Some(p)
    ensures |r| == |t|
    ensures forall j :: 0 <= j < |t| ==> r[j].parent == (if j == i then Some(init) else t[j].parent)
    ensures forall j :: 0 <= j < |t| ==>
      r[j].state == (if Wakes(t, ProcChan(init), Some(p), j) then Runnable else t[j].state)
    ensures forall j :: 0 <= j < |t| ==> r[j].(state := t[j].state, parent := t[j].parent) == t[j]
    ensures forall j :: 0 <= j < |t| ==> !Wakes(r, ProcChan(init), Some(p), j)
  {
    var t0 := t[i := t[i].(parent := Some(init))];
    assert forall j :: 0 <= j < |t| ==> (Wakes(t0, ProcChan(init), Some(p), j) <==> Wakes(t, ProcChan(init), Some(p), j));
    Wakeup(t0, ProcChan(init), Some(p))
  }

  /** The `reparent` loop from slot i on: each child of p gets init as parent,
      and right after each such change `wakeup(initproc)` runs, issued by p. */
  function ReparentFrom(t: seq<Proc>, p: nat, init: nat, i: nat): (r: seq<Proc>)
    requires i <= |t|
    decreases |t| - i
    ensures |r| == |t|
    ensures forall j :: 0 <= j < |t| ==>
      r[j].parent == (if i <= j && t[j].parent == Some(p) then Some(init) else t[j].parent)
    ensures forall j :: 0 <= j < |t| ==>
      r[j].state == (if ChildFrom(t, p, i) && Wakes(t, ProcChan(init), Some(p), j) then Runnable else t[j].state)
    ensures forall j :: 0 <= j < |t| ==> r[j].(state := t[j].state, parent := t[j].parent) == t[j]
  {
    if i == |t| then t
    else if t[i].parent == Some(p) then
      var t1 := ReparentStep(t, p, init, i);
      assert ChildFrom(t, p, i);
      ReparentFrom(t1, p, init, i + 1)
    else
      assert ChildFrom(t, p, i) <==> ChildFrom(t, p, i + 1);
      ReparentFrom(t, p, init, i + 1)
  }

  /** `reparent(p)`: hand p's children to init, waking init if there was any. */
  function Reparent(t: seq<Proc>, p: nat, init: nat): (r: seq<Proc>)
    ensures |r| == |t|
    ensures forall j :: 0 <= j < |t| ==>
      r[j].parent == (if t[j].parent == Some(p) then Some(init) else t[j].parent)
    ensures forall j :: 0 <= j < |t| ==>
      r[j].state == (if ChildFrom(t, p, 0) && Wakes(t, ProcChan(init), Some(p), j) then Runnable else t[j].state)
    ensures forall j :: 0 <= j < |t| ==> r[j].(state := t[j].state, parent := t[j].parent) == t[j]
  {
    ReparentFrom(t, p, init, 0)
  }

  // ---------------------------------------------------------------------------
  // exit
  // ---------------------------------------------------------------------------

  datatype Exited = Exited(k: Kernel) | InitExiting

  /** The parent field after reparenting p's children to init. */
  function Adopted(parent: Option<nat>, p: nat, init: nat): (r: Option<nat>)
    ensures r != Some(p) || p == init
    ensures parent != Some(p) ==> r == parent
  {
    if parent == Some(p) then Some(init) else parent
  }

  /** Whether `exit` by cur makes slot j runnable: j sleeps either in init's
      wait (and cur had children to hand over) or in cur's parent's wait. */
  predicate ExitWakes(t: seq<Proc>, cur: nat, init: nat, j: nat)
    requires cur < |t| && j < |t|
  {
    && j != cur
    && t[j].state == Sleeping
    && ((ChildFrom(t, cur, 0) && t[j].chan == ProcChan(init))
        || t[j].chan == ParentChan(Adopted(t[cur].parent, cur, init)))
  }

  /** `exit(status)`: init may not exit (the kernel panics). Otherwise every
      child of cur is handed to init, init and cur's parent are woken if they
      sleep in `wait`, and cur becomes a ZOMBIE holding status. Nothing else
      changes. The file closing and the final `sched` are not modelled. */
  function Exit(k: Kernel, cur: nat, status: int): (r: Exited)
    requires IsCurrent(k, cur)
    ensures r.InitExiting? <==> cur == k.initproc
    ensures r.Exited? ==> |r.k.procs| == |k.procs|
    ensures r.Exited? ==> r.k.procs[cur].state == Zombie && r.k.procs[cur].xstate == status
    ensures r.Exited? ==>
      r.k.procs[cur] == k.procs[cur].(state := Zombie, xstate := status, parent := Adopted(k.procs[cur].parent, cur, k.initproc))
    ensures r.Exited? ==> forall j :: 0 <= j < |k.procs| ==>
      r.k.procs[j].parent == Adopted(k.procs[j].parent, cur, k.initproc)
    ensures r.Exited? ==> forall j :: 0 <= j < |k.procs| ==> r.k.procs[j].parent != Some(cur)
    ensures r.Exited? ==> forall j :: 0 <= j < |k.procs| && j != cur ==>
      r.k.procs[j].state == (if ExitWakes(k.procs, cur, k.initproc, j) then Runnable else k.procs[j].state)
    ensures r.Exited? ==> forall j :: 0 <= j < |k.procs| && j != cur ==>
      r.k.procs[j].(state := k.procs[j].state, parent := k.procs[j].parent) == k.procs[j]
    ensures r.Exited? ==> r.k.(procs := k.procs) == k
  {
    if cur == k.initproc then InitExiting
    else
      var t := ExitWakeups(k.procs, cur, k.initproc);
      Exited(k.(procs := t[cur := t[cur].(xstate := status, state := Zombie)]))
  }

  /** The part of `exit` before the caller turns ZOMBIE: reparent its
      children, then `wakeup` its (possibly new) parent. Only parent links
      and the states of the woken sleepers change. */
  function ExitWakeups(t: seq<Proc>, cur: nat, init: nat): (r: seq<Proc>)
    requires cur < |t|
    ensures |r| == |t|
    ensures forall j :: 0 <= j < |t| ==> r[j].parent == Adopted(t[j].parent, cur, init)
    ensures forall j :: 0 <= j < |t| && j != cur ==>
      r[j].state == (if ExitWakes(t, cur, init, j) then Runnable else t[j].state)
    ensures forall j :: 0 <= j < |t| ==> r[j].(state := t[j].state, parent := t[j].parent) == t[j]
  {
    var t1 := Reparent(t, cur, init);
    var c := ParentChan(t1[cur].parent);
    assert c == ParentChan(Adopted(t[cur].parent, cur, init));
    var r := Wakeup(t1, c, Some(cur));
    forall j | 0 <= j < |t| && j != cur
      ensures r[j].state == (if ExitWakes(t, cur, init, j) then Runnable else t[j].state)
    {
      assert Wakes(t1, c, Some(cur), j) <==> t1[j].state == Sleeping && t[j].chan == c;
    }
    r
  }

  /** Exit keeps the table invariant: only states and parent links change, and
      nobody becomes free. */
  lemma ExitValid(k: Kernel, cur: nat, status: int)
    requires Valid(k) && IsCurrent(k, cur)
    ensures Exit(k, cur, status).Exited? ==> Valid(Exit(k, cur, status).k)
  {
    var r := Exit(k, cur, status);
    if r.Exited? {
      assert forall j :: 0 <= j < |k.procs| ==> (Live(r.k.procs[j]) <==> Live(k.procs[j]));
      assert forall j :: 0 <= j < |k.procs| ==> r.k.procs[j].pid == k.procs[j].pid && r.k.procs[j].tid == k.procs[j].tid;
    }
  }

  // ---------------------------------------------------------------------------
  // sleep and yield
  // ---------------------------------------------------------------------------

  /** The state change of `sleep(chan, lk)` before its `sched`: the caller
      records the channel and becomes SLEEPING; no other slot changes. */
  function Sleep(t: seq<Proc>, cur: nat, c: Chan): (r: seq<Proc>)
    requires cur < |t| && t[cur].state == Running
    ensures |r| == |t|
    ensures r[cur].state == Sleeping && r[cur].chan == c
    ensures r[cur].(state := Running, chan := t[cur].chan) == t[cur]
    ensures forall j :: 0 <= j < |t| && j != cur ==> r[j] == t[j]
  {
    t[cur := t[cur].(chan := c, state := Sleeping)]
  }

  /** What `sleep` does once the scheduler runs the caller again: clear the channel. */
  function SleepResume(t: seq<Proc>, cur: nat): (r: seq<Proc>)
    requires cur < |t| && t[cur].state == Running
    ensures |r| == |t| && r[cur].chan == NoChan
    ensures r[cur].(chan := t[cur].chan) == t[cur]
    ensures forall j :: 0 <= j < |t| && j != cur ==> r[j] == t[j]
  {
    t[cur := t[cur].(chan := NoChan)]
  }

  /** `yield`: the caller goes from RUNNING back to RUNNABLE. */
  function Yield(t: seq<Proc>, cur: nat): (r: seq<Proc>)
    requires cur < |t| && t[cur].state == Running
    ensures |r| == |t| && r[cur].state == Runnable
    ensures r[cur].(state := Running) == t[cur]
    ensures forall j :: 0 <= j < |t| && j != cur ==> r[j] == t[j]
  {
    t[cur := t[cur].(state := Runnable)]
  }

  // ---------------------------------------------------------------------------
  // wait
  // ---------------------------------------------------------------------------

  datatype Waited = Reaped(pid: int, status: int, k: Kernel) | WaitFailed | Blocked(k: Kernel)

  predicate IsZombieChild(p: Proc, cur: nat) {
    p.parent == Some(cur) && p.state == Zombie
  }

  predicate HasZombieChild(t: seq<Proc>, cur: nat) {
    exists j :: 0 <= j < |t| && IsZombieChild(t[j], cur)
  }

  /** r reaps slot i: the lowest-index zombie child of cur, whose pid and exit
      status are returned and whose slot is freed; nothing else changes. */
  ghost predicate ReapedAt(k: Kernel, cur: nat, i: nat, r: Waited) {
    && r.Reaped?
    && i < |k.procs|
    && IsZombieChild(k.procs[i], cur)
    && (forall j :: 0 <= j < i ==> !IsZombieChild(k.procs[j], cur))
    && r.pid == k.procs[i].pid
    && r.status == k.procs[i].xstate
    && r.k == k.(procs := k.procs[i := FreeProc(k.procs[i])])
  }

  /** One pass of `wait(addr)`. wantStatus says addr is not null and copyOk is
      the outcome of `copyout` of the exit status. The lowest-index zombie
      child is reaped, unless the copy fails, which returns -1 and leaves the
      zombie for a later wait. With no zombie child, a caller that has no
      children or has been killed gets -1 at once, and otherwise goes to sleep
      on its own slot until an exiting child wakes it to scan again. */
  function Wait(k: Kernel, cur: nat, wantStatus: bool, copyOk: bool): (r: Waited)
    requires IsCurrent(k, cur)
    ensures r.Reaped? <==> HasZombieChild(k.procs, cur) && (!wantStatus || copyOk)
    ensures r.Reaped? ==> exists i: nat :: ReapedAt(k, cur, i, r)
    ensures r.WaitFailed? <==>
      || (HasZombieChild(k.procs, cur) && wantStatus && !copyOk)
      || (!HasZombieChild(k.procs, cur) && (!ChildFrom(k.procs, cur, 0) || k.procs[cur].killed))
    ensures r.Blocked? ==> r.k == k.(procs := Sleep(k.procs, cur, ProcChan(cur)))
  {
    var t := k.procs;
    match FirstFrom(t, (p: Proc) => IsZombieChild(p, cur), 0)
    case Some(i) =>
      if wantStatus && !copyOk then WaitFailed
      else
        var r := Reaped(t[i].pid, t[i].xstate, k.(procs := t[i := FreeProc(t[i])]));
        assert ReapedAt(k, cur, i, r);
        r
    case None =>
      if !ChildFrom(t, cur, 0) || t[cur].killed then WaitFailed
      else Blocked(k.(procs := Sleep(t, cur, ProcChan(cur))))
  }

  /** Reaping frees exactly one live slot. */
  lemma WaitLiveCount(k: Kernel, cur: nat, wantStatus: bool, copyOk: bool)
    requires IsCurrent(k, cur)
    ensures var r := Wait(k, cur, wantStatus, copyOk);
      r.Reaped? ==> LiveCount(r.k.procs) == LiveCount(k.procs) - 1
  {
    var r := Wait(k, cur, wantStatus, copyOk);
    if r.Reaped? {
      var i: nat :| ReapedAt(k, cur, i, r);
      LiveCountUpdate(k.procs, i, FreeProc(k.procs[i]));
    }
  }

  /** Wait keeps the table invariant: the reaped slot is left clean. */
  lemma WaitValid(k: Kernel, cur: nat, wantStatus: bool, copyOk: bool)
    requires Valid(k) && IsCurrent(k, cur)
    ensures var r := Wait(k, cur, wantStatus, copyOk);
      (r.Reaped? || r.Blocked?) ==> Valid(r.k)
  {
    var r := Wait(k, cur, wantStatus, copyOk);
    if r.Reaped? {
      var i: nat :| ReapedAt(k, cur, i, r);
      ValidAfterOneSlot(k, r.k, i);
    } else if r.Blocked? {
      ValidAfterOneSlot(k, r.k, cur);
    }
  }
}

=== FILE: proc_table.dfy ===
/**
 The process table of kernel/proc.c: a fixed-length sequence of process
 records and the operations that scan or update it slot by slot — slot
 allocation (`allocproc`, `allocpid`, `alloctid`), reclamation (`freeproc`),
 `wakeup`, `kill` and the live-slot count of `get_sysinfo(0)`.

 Every operation is one atomic step over the whole table on one CPU. The
 per-slot locks and `pid_lock`/`tid_lock` are not modelled; the README's
 "Left out" section names the places where they change the outcome.
 */
module ProcTable {
  import opened Wrappers

  /** Number of table slots (`NPROC`). */
  const NPROC: nat := 64
  /** `stride1`: the base ticket count, also the default ticket count and the
      dividend of the stride formula. */
  const STRIDE1: int := 10000
  /** Stride `allocproc` installs; not STRIDE1 / STRIDE1. */
  const DEFAULT_STRIDE: int := 10
  /** `__INT_MAX__`, the stride scheduler's initial minimum. */
  const INT_MAX: int := 0x7FFF_FFFF

  datatype ProcState = Unused | Used | Sleeping | Runnable | Running | Zombie

  /** What a sleeper waits on. In C a channel is an address: the null pointer,
      the address of a table slot (`wait` sleeps on its own `struct proc`), or
      some other kernel address. */
  datatype Chan = NoChan | ProcChan(slot: nat) | OtherChan(addr: nat)

  /** One slot of the table. `parent` is a slot index (None for the null
      pointer); `syscallCount` is the per-process system-call counter that
      `allocproc` resets. */
  datatype Proc = Proc(
    state: ProcState,
    pid: int,
    tid: int,
    parent: Option<nat>,
    chan: Chan,
    killed: bool,
    xstate: int,
    tickets: int,
    stride: int,
    pass: int,
    ticks: int,
    sz: nat,
    name: string,
    syscallCount: int)

  /** The table together with the globals proc.c keeps beside it. */
  datatype Kernel = Kernel(
    procs: seq<Proc>,
    nextpid: int,
    nexttid: int,
    lfsr: bv16,
    initproc: nat)

  predicate Live(p: Proc) {
    p.state != Unused
  }

  /** A slot whose identity and relationship fields hold the zero values `freeproc` writes. */
  predicate IsClean(p: Proc) {
    && p.state == Unused
    && p.pid == 0
    && p.tid == 0
    && p.parent == None
    && p.chan == NoChan
    && !p.killed
    && p.xstate == 0
    && p.sz == 0
    && p.name == ""
  }

  /** A slot as the zero-initialised static table holds it before any allocation. */
  const Blank: Proc := Proc(Unused, 0, 0, None, NoChan, false, 0, 0, 0, 0, 0, 0, "", 0)

  /** The channel `wakeup(p->parent)` names: the parent's slot, or the null pointer. */
  function ParentChan(parent: Option<nat>): (c: Chan)
    ensures c == NoChan <==> parent.None?
    ensures c.ProcChan? ==> parent == Some(c.slot)
  {
    match parent
    case None => NoChan
    case Some(s) => ProcChan(s)
  }

  // ---------------------------------------------------------------------------
  // Scanning for the first matching slot
  // ---------------------------------------------------------------------------

  /** The lowest slot at index i or above that satisfies P; the shape of every
      `for(p = proc; p < &proc[NPROC]; p++) if(...)` scan that stops at its first hit. */
  function FirstFrom(t: seq<Proc>, P: Proc -> bool, i: nat): (r: Option<nat>)
    requires i <= |t|
    decreases |t| - i
    ensures r.Some? ==> i <= r.value < |t| && P(t[r.value])
    ensures r.Some? ==> forall j :: i <= j < r.value ==> !P(t[j])
    ensures r.None? ==> forall j :: i <= j < |t| ==> !P(t[j])
  {
    if i == |t| then None
    else if P(t[i]) then Some(i)
    else FirstFrom(t, P, i + 1)
  }

  // ---------------------------------------------------------------------------
  // The table invariant
  // ---------------------------------------------------------------------------

  /** Every free slot holds the zero values `freeproc` writes, except that
      its `killed` flag may be set: `kill` as written matches free slots too
      (their pid is 0), and nothing clears the flag before the slot's next use. */
  ghost predicate FreeSlotsClean(t: seq<Proc>) {
    forall i :: 0 <= i < |t| && t[i].state == Unused ==> IsClean(t[i].(killed := false))
  }

  /** No free slot carries a kill mark; a process allocated from such a
      table starts unkilled. The as-written `kill(0)` breaks this and the
      corrected kill keeps it. */
  ghost predicate NoKilledFree(t: seq<Proc>) {
    forall i :: 0 <= i < |t| && t[i].state == Unused ==> !t[i].killed
  }

  ghost predicate PidsDistinct(t: seq<Proc>) {
    forall i, j :: 0 <= i < |t| && 0 <= j < |t| && i != j && Live(t[i]) && Live(t[j]) ==> t[i].pid != t[j].pid
  }

  /** Every live pid and tid was handed out by the counters, so the counters
      stay ahead of them. */
  ghost predicate IdsIssued(k: Kernel) {
    && 1 <= k.nextpid
    && 1 <= k.nexttid
    && (forall i :: 0 <= i < |k.procs| && Live(k.procs[i]) ==> 0 < k.procs[i].pid < k.nextpid)
    && (forall i :: 0 <= i < |k.procs| && Live(k.procs[i]) ==> 0 <= k.procs[i].tid < k.nexttid)
  }

  /** What every reachable table satisfies: NPROC slots, free slots cleared
      (up to a kill mark), live pids issued by the counter and pairwise distinct. */
  ghost predicate Valid(k: Kernel) {
    && |k.procs| == NPROC
    && k.initproc < NPROC
    && FreeSlotsClean(k.procs)
    && IdsIssued(k)
    && PidsDistinct(k.procs)
  }

  // ---------------------------------------------------------------------------
  // freeproc
  // ---------------------------------------------------------------------------

  /** `freeproc`: the slot goes back to UNUSED with pid, tid, parent, name,
      chan, killed, xstate and size cleared. The scheduling bookkeeping
      (tickets, stride, pass, ticks) and the system-call counter are not
      touched; they persist only while the slot is UNUSED, where no scan reads
      them, because `allocproc` rewrites all five when it takes the slot again. */
  function FreeProc(p: Proc): (q: Proc)
    ensures IsClean(q)
    ensures q.tickets == p.tickets && q.stride == p.stride && q.pass == p.pass && q.ticks == p.ticks
    ensures q.syscallCount == p.syscallCount
  {
    p.(state := Unused, pid := 0, tid := 0, parent := None, chan := NoChan,
       killed := false, xstate := 0, sz := 0, name := "")
  }

  /** Freeing twice is the same as freeing once, which makes the cleanup on
      every failure path of allocation safe. */
  lemma FreeProcIdempotent(p: Proc)
    ensures FreeProc(FreeProc(p)) == FreeProc(p)
  {
  }

  /** Freeing a slot that is already clean changes nothing visible to the table scans. */
  lemma FreeProcOfClean(p: Proc)
    requires IsClean(p)
    ensures FreeProc(p) == p
  {
  }

  // ---------------------------------------------------------------------------
  // allocpid, alloctid, allocproc
  // ---------------------------------------------------------------------------

  /** `allocpid`: the counter's current value, and the counter advanced. */
  function AllocPid(k: Kernel): (r: (int, Kernel))
    ensures r.0 == k.nextpid && r.1.nextpid == r.0 + 1
    ensures r.1.(nextpid := k.nextpid) == k
  {
    (k.nextpid, k.(nextpid := k.nextpid + 1))
  }

  /** `alloctid`: the same for the thread-id counter. */
  function AllocTid(k: Kernel): (r: (int, Kernel))
    ensures r.0 == k.nexttid && r.1.nexttid == r.0 + 1
    ensures r.1.(nexttid := k.nexttid) == k
  {
    (k.nexttid, k.(nexttid := k.nexttid + 1))
  }

  /** A pid from `allocpid` differs from every live pid, and the counter stays ahead of them. */
  lemma AllocPidFresh(k: Kernel)
    requires IdsIssued(k)
    ensures AllocPid(k).0 > 0
    ensures forall i :: 0 <= i < |k.procs| && Live(k.procs[i]) ==> k.procs[i].pid < AllocPid(k).0 < AllocPid(k).1.nextpid
  {
  }

  /** A tid from `alloctid` is positive and exceeds every live tid. */
  lemma AllocTidFresh(k: Kernel)
    requires IdsIssued(k)
    ensures AllocTid(k).0 > 0
    ensures forall i :: 0 <= i < |k.procs| && Live(k.procs[i]) ==> k.procs[i].tid < AllocTid(k).0 < AllocTid(k).1.nexttid
  {
  }

  /** The allocation scan reaches slot j (and so resets its system-call
      counter) exactly when every slot before j is in use. */
  ghost predicate Scanned(t: seq<Proc>, j: nat) {
    forall f :: 0 <= f < j && f < |t| ==> t[f].state != Unused
  }

  ghost predicate HasFree(t: seq<Proc>) {
    exists i :: 0 <= i < |t| && t[i].state == Unused
  }

  ghost predicate LowestFree(t: seq<Proc>, i: nat) {
    i < |t| && t[i].state == Unused && Scanned(t, i)
  }

  /** p and q differ at most in the system-call counter `allocproc` resets while scanning. */
  ghost predicate EqualButSyscalls(p: Proc, q: Proc) {
    p.(syscallCount := 0) == q.(syscallCount := 0)
  }

  /** The fields `allocproc` writes into the slot it takes. */
  function Claim(p: Proc, pid: int, tid: int): (q: Proc)
    ensures Live(q) && q.pid == pid && q.tid == tid
    ensures q.tickets == STRIDE1 && q.stride == DEFAULT_STRIDE && q.pass == 0 && q.ticks == 0 && q.syscallCount == 0
    ensures q.(state := p.state, pid := p.pid, tid := p.tid, tickets := p.tickets, stride := p.stride,
               pass := p.pass, ticks := p.ticks, syscallCount := p.syscallCount) == p
  {
    p.(state := Used, pid := pid, tid := tid, tickets := STRIDE1, ticks := 0,
       stride := DEFAULT_STRIDE, pass := 0, syscallCount := 0)
  }

  /** The first n slots with their system-call counters reset. */
  function ZeroSyscalls(t: seq<Proc>, n: nat): (r: seq<Proc>)
    requires n <= |t|
    ensures |r| == |t|
    ensures forall j :: 0 <= j < |t| ==> r[j] == if j < n then t[j].(syscallCount := 0) else t[j]
  {
    seq(|t|, j requires 0 <= j < |t| => if j < n then t[j].(syscallCount := 0) else t[j])
  }

  datatype Alloc = Alloc(k: Kernel, slot: Option<nat>)

  /** `allocproc` once its scan has stopped at slot i, the lowest free one:
      the scanned slots below i have their system-call counters reset, slot i
      is claimed with the next pid (and tid), and freed again when memory runs
      out; the slots above i are untouched. */
  function AllocAt(k: Kernel, isThread: bool, memOk: bool, i: nat): (r: Alloc)
    requires LowestFree(k.procs, i)
    ensures |r.k.procs| == |k.procs|
    ensures r.k.lfsr == k.lfsr && r.k.initproc == k.initproc
    ensures r.k.nextpid == k.nextpid + 1 && r.k.nexttid == (if isThread then k.nexttid + 1 else k.nexttid)
    ensures r.slot == (if memOk then Some(i) else None)
    ensures var claimed := Claim(k.procs[i], k.nextpid, if isThread then k.nexttid else 0);
      r.k.procs[i] == if memOk then claimed else FreeProc(claimed)
    ensures forall j :: 0 <= j < i ==> r.k.procs[j] == k.procs[j].(syscallCount := 0)
    ensures forall j :: i < j < |k.procs| ==> r.k.procs[j] == k.procs[j]
  {
    var t1 := ZeroSyscalls(k.procs, i + 1);
    var (pid, k0) := AllocPid(k);
    var (tid, k1) := if isThread then AllocTid(k0) else (0, k0);
    var p := Claim(t1[i], pid, tid);
    assert t1[i].(syscallCount := 0) == k.procs[i].(syscallCount := 0);
    if memOk then Alloc(k1.(procs := t1[i := p]), Some(i))
    else Alloc(k1.(procs := t1[i := FreeProc(p)]), None)
  }

  /** `allocproc(isthread)`. memOk is the outcome of the trap-frame `kalloc`
      and, for a process, of `proc_pagetable`. The scan resets the system-call
      counter of every slot it visits. The first UNUSED slot gets a fresh pid,
      state USED, the default ticket count, stride 10, pass and ticks 0, and tid
      0 (process) or a fresh tid (thread). When memory runs out the slot is
      freed again, but the pid (and tid) are spent and the default scheduling
      fields stay. */
  function AllocProc(k: Kernel, isThread: bool, memOk: bool): (r: Alloc)
    ensures |r.k.procs| == |k.procs|
    ensures r.k.lfsr == k.lfsr && r.k.initproc == k.initproc
    ensures r.slot.Some? <==> memOk && HasFree(k.procs)
    ensures r.slot.Some? ==> LowestFree(k.procs, r.slot.value)
    ensures r.slot.Some? ==>
      r.k.procs[r.slot.value] == Claim(k.procs[r.slot.value], k.nextpid, if isThread then k.nexttid else 0)
    ensures !memOk ==> forall j :: 0 <= j < |k.procs| && LowestFree(k.procs, j) ==>
      r.k.procs[j] == FreeProc(Claim(k.procs[j], k.nextpid, if isThread then k.nexttid else 0))
    ensures HasFree(k.procs) ==>
      r.k.nextpid == k.nextpid + 1 && r.k.nexttid == (if isThread then k.nexttid + 1 else k.nexttid)
    ensures !HasFree(k.procs) ==> r.k.nextpid == k.nextpid && r.k.nexttid == k.nexttid
    ensures forall j :: 0 <= j < |k.procs| && !Scanned(k.procs, j) ==> r.k.procs[j] == k.procs[j]
    ensures forall j :: 0 <= j < |k.procs| && Scanned(k.procs, j) && !LowestFree(k.procs, j) ==>
      r.k.procs[j] == k.procs[j].(syscallCount := 0)
    ensures forall j :: 0 <= j < |k.procs| && !LowestFree(k.procs, j) ==> EqualButSyscalls(r.k.procs[j], k.procs[j])
  {
    var t := k.procs;
    match FirstFrom(t, (p: Proc) => p.state == Unused, 0)
    case None =>
      Alloc(k.(procs := ZeroSyscalls(t, |t|)), None)
    case Some(i) =>
      assert LowestFree(t, i);
      assert forall j :: LowestFree(t, j) ==> j == i;
      assert forall j :: 0 <= j <= i ==> Scanned(t, j);
      AllocAt(k, isThread, memOk, i)
  }

  // ---------------------------------------------------------------------------
  // get_sysinfo(0)
  // ---------------------------------------------------------------------------

  /** The number of slots not in UNUSED state (`get_sysinfo(0)`). It is zero
      exactly when the table is empty of processes and equals the table size
      exactly when no slot is free. */
  function LiveCount(t: seq<Proc>): (n: nat)
    ensures n <= |t|
    ensures n == 0 <==> forall i :: 0 <= i < |t| ==> t[i].state == Unused
    ensures n == |t| <==> forall i :: 0 <= i < |t| ==> t[i].state != Unused
  {
    if |t| == 0 then 0
    else
      var rest := LiveCount(t[1..]);
      assert forall i :: 1 <= i < |t| ==> t[1..][i - 1] == t[i];
      (if Live(t[0]) then 1 else 0) + rest
  }

  /** `get_sysinfo(n)`. Only n == 0 reads the table; the system-call total and
      the free-page count are kept elsewhere and enter as parameters. */
  function GetSysinfo(t: seq<Proc>, n: int, syscallCounter: int, freePages: int): (r: int)
    ensures n == 0 ==> r == LiveCount(t)
    ensures n == 0 ==> 0 <= r <= |t| && (r == 0 <==> forall i :: 0 <= i < |t| ==> !Live(t[i]))
    ensures n == 1 ==> r == syscallCounter - 1
    ensures n == 2 ==> r == freePages
    ensures n !in {0, 1, 2} ==> r == -1
  {
    if n == 0 then LiveCount(t)
    else if n == 1 then syscallCounter - 1
    else if n == 2 then freePages
    else -1
  }

  /** Replacing one slot changes the live count by the change in that slot's liveness. */
  lemma {:induction false} LiveCountUpdate(t: seq<Proc>, i: nat, p: Proc)
    requires i < |t|
    ensures LiveCount(t[i := p]) ==
      LiveCount(t) - (if Live(t[i]) then 1 else 0) + (if Live(p) then 1 else 0)
  {
    if i == 0 {
      assert t[i := p][1..] == t[1..];
    } else {
      assert t[i := p][1..] == t[1..][i - 1 := p];
      LiveCountUpdate(t[1..], i - 1, p);
    }
  }

  /** The live count depends only on which slots are in use. */
  lemma {:induction false} LiveCountSameLiveness(a: seq<Proc>, b: seq<Proc>)
    requires |a| == |b|
    requires forall i :: 0 <= i < |a| ==> Live(a[i]) == Live(b[i])
    ensures LiveCount(a) == LiveCount(b)
  {
    if |a| > 0 {
      LiveCountSameLiveness(a[1..], b[1..]);
    }
  }

  /** Tables that differ in liveness at most at slot w differ in live count by that slot's change. */
  lemma LiveCountOneSlot(a: seq<Proc>, b: seq<Proc>, w: nat)
    requires |a| == |b| && w < |a|
    requires forall j :: 0 <= j < |a| && j != w ==> Live(a[j]) == Live(b[j])
    ensures LiveCount(b) == LiveCount(a) - (if Live(a[w]) then 1 else 0) + (if Live(b[w]) then 1 else 0)
  {
    var u := b[w := a[w]];
    assert forall j :: 0 <= j < |a| ==> Live(u[j]) == Live(a[j]);
    LiveCountSameLiveness(u, a);
    LiveCountUpdate(u, w, b[w]);
    assert u[w := b[w]] == b;
  }

  /** A successful allocation takes one free slot: the live count grows by one.
      A failed one leaves every slot's state and so the count unchanged. */
  lemma AllocProcLiveCount(k: Kernel, isThread: bool, memOk: bool)
    ensures var r := AllocProc(k, isThread, memOk);
      LiveCount(r.k.procs) == LiveCount(k.procs) + (if r.slot.Some? then 1 else 0)
  {
    var r := AllocProc(k, isThread, memOk);
    var t := k.procs;
    if r.slot.Some? {
      LiveCountOneSlot(t, r.k.procs, r.slot.value);
    } else {
      assert forall j :: 0 <= j < |t| ==> Live(r.k.procs[j]) == Live(t[j]);
      LiveCountSameLiveness(r.k.procs, t);
    }
  }

  /** p and q agree on everything the table invariant looks at. */
  ghost predicate SameIdentity(p: Proc, q: Proc) {
    p.state == q.state && p.pid == q.pid && p.tid == q.tid && p.parent == q.parent && p.chan == q.chan
    && p.killed == q.killed && p.xstate == q.xstate && p.sz == q.sz && p.name == q.name
  }

  /** When some slot is free, exactly one slot is the lowest free one. */
  lemma LowestFreeExists(t: seq<Proc>) returns (w: nat)
    requires HasFree(t)
    ensures LowestFree(t, w)
    ensures forall j :: 0 <= j < |t| && LowestFree(t, j) ==> j == w
  {
    var m := FirstFrom(t, (p: Proc) => p.state == Unused, 0);
    w := m.value;
  }

  /** Allocation keeps the table invariant: the new slot's pid is fresh, and a
      slot freed again on the out-of-memory path is clean. */
  lemma AllocProcValid(k: Kernel, isThread: bool, memOk: bool)
    requires Valid(k)
    ensures Valid(AllocProc(k, isThread, memOk).k)
  {
    var r := AllocProc(k, isThread, memOk);
    var t := k.procs;
    var t' := r.k.procs;
    assert forall j :: 0 <= j < |t| && !LowestFree(t, j) ==> SameIdentity(t'[j], t[j]);
    if HasFree(t) {
      var w := LowestFreeExists(t);
      AllocProcValidAt(k, isThread, memOk, w);
    }
  }

  lemma AllocProcValidAt(k: Kernel, isThread: bool, memOk: bool, w: nat)
    requires Valid(k)
    requires LowestFree(k.procs, w)
    requires forall j :: 0 <= j < |k.procs| && LowestFree(k.procs, j) ==> j == w
    ensures Valid(AllocProc(k, isThread, memOk).k)
  {
    var r := AllocProc(k, isThread, memOk);
    var t := k.procs;
    var t' := r.k.procs;
    if memOk {
      assert t'[w] == Claim(t[w], k.nextpid, if isThread then k.nexttid else 0);
    } else {
      assert t'[w] == FreeProc(Claim(t[w], k.nextpid, if isThread then k.nexttid else 0));
    }
    ValidAfterOneSlot(k, r.k, w);
  }

  /** The invariant survives any step that changes the identity of at most
      slot w, provided w ends up clean if free and with fresh ids if live. */
  lemma ValidAfterOneSlot(k: Kernel, k': Kernel, w: nat)
    requires Valid(k)
    requires |k'.procs| == |k.procs| && w < |k.procs| && k'.initproc == k.initproc
    requires k.nextpid <= k'.nextpid && k.nexttid <= k'.nexttid
    requires forall j :: 0 <= j < |k.procs| && j != w ==> SameIdentity(k'.procs[j], k.procs[j])
    requires k'.procs[w].state == Unused ==> IsClean(k'.procs[w])
    requires Live(k'.procs[w]) ==>
      && 0 < k'.procs[w].pid < k'.nextpid
      && 0 <= k'.procs[w].tid < k'.nexttid
      && forall j :: 0 <= j < |k.procs| && j != w && Live(k.procs[j]) ==> k.procs[j].pid != k'.procs[w].pid
    ensures Valid(k')
  {
    var t := k.procs;
    var t' := k'.procs;
    forall a, b | 0 <= a < |t'| && 0 <= b < |t'| && a != b && Live(t'[a]) && Live(t'[b])
      ensures t'[a].pid != t'[b].pid
    {
      if a != w && b != w {
        assert SameIdentity(t'[a], t[a]) && SameIdentity(t'[b], t[b]);
      }
    }
  }

  // ---------------------------------------------------------------------------
  // wakeup
  // ---------------------------------------------------------------------------

  /** Whether `wakeup(c)` issued by slot `self` (None when no process is
      current) makes slot j runnable. */
  predicate Wakes(t: seq<Proc>, c: Chan, self: Option<nat>, j: nat)
    requires j < |t|
  {
    self != Some(j) && t[j].state == Sleeping && t[j].chan == c
  }

  /** The `wakeup` scan from slot i on. */
  function WakeupFrom(t: seq<Proc>, c: Chan, self: Option<nat>, i: nat): (r: seq<Proc>)
    requires i <= |t|
    decreases |t| - i
    ensures |r| == |t|
    ensures forall j :: 0 <= j < i ==> r[j] == t[j]
    ensures forall j :: i <= j < |t| && Wakes(t, c, self, j) ==> r[j] == t[j].(state := Runnable)
    ensures forall j :: i <= j < |t| && !Wakes(t, c, self, j) ==> r[j] == t[j]
  {
    if i == |t| then t
    else if Wakes(t, c, self, i) then
      var t1 := t[i := t[i].(state := Runnable)];
      assert forall j :: i < j < |t| ==> (Wakes(t1, c, self, j) <==> Wakes(t, c, self, j));
      WakeupFrom(t1, c, self, i + 1)
    else WakeupFrom(t, c, self, i + 1)
  }

  /** `wakeup(c)`: exactly the slots other than the caller's that sleep on c
      become RUNNABLE; every other slot is unchanged. */
  function Wakeup(t: seq<Proc>, c: Chan, self: Option<nat>): (r: seq<Proc>)
    ensures |r| == |t|
    ensures forall j :: 0 <= j < |t| && Wakes(t, c, self, j) ==> r[j] == t[j].(state := Runnable)
    ensures forall j :: 0 <= j < |t| && !Wakes(t, c, self, j) ==> r[j] == t[j]
  {
    WakeupFrom(t, c, self, 0)
  }

  /** A sleeper on another channel, or the caller itself, stays asleep. */
  lemma WakeupLeavesOtherSleepers(t: seq<Proc>, c: Chan, self: Option<nat>, j: nat)
    requires j < |t| && t[j].state == Sleeping
    requires t[j].chan != c || self == Some(j)
    ensures Wakeup(t, c, self)[j] == t[j]
  {
  }

  /** A second identical wakeup finds nobody left to wake. */
  lemma WakeupIdempotent(t: seq<Proc>, c: Chan, self: Option<nat>)
    ensures Wakeup(Wakeup(t, c, self), c, self) == Wakeup(t, c, self)
  {
    var w := Wakeup(t, c, self);
    assert forall j :: 0 <= j < |w| ==> !Wakes(w, c, self, j);
  }

  /** Waking changes only SLEEPING slots into RUNNABLE ones, so the table invariant holds after it. */
  lemma WakeupValid(k: Kernel, c: Chan, self: Option<nat>)
    requires Valid(k)
    ensures Valid(k.(procs := Wakeup(k.procs, c, self)))
  {
  }

  // ---------------------------------------------------------------------------
  // kill
  // ---------------------------------------------------------------------------

  /** What `kill` does to the slot it finds: set the flag, and wake a sleeper. */
  function KillSlot(p: Proc): (q: Proc)
    ensures q.killed && Live(q) == Live(p) && q.state != Sleeping
    ensures q.(killed := p.killed, state := p.state) == p
  {
    p.(killed := true, state := if p.state == Sleeping then Runnable else p.state)
  }

  datatype Killed = Killed(ret: int, procs: seq<Proc>)

  /** t' is t after `kill(pid)` hit slot i: i is the lowest slot whose pid is
      pid, it is now marked killed (and woken if it slept), and no other slot
      changed. */
  ghost predicate KilledAt(t: seq<Proc>, pid: int, i: int, t': seq<Proc>) {
    && 0 <= i < |t| == |t'|
    && t[i].pid == pid
    && (forall j :: 0 <= j < i ==> t[j].pid != pid)
    && t'[i] == KillSlot(t[i])
    && (forall j :: 0 <= j < |t| && j != i ==> t'[j] == t[j])
  }

  /** `kill(pid)` as written: the first slot whose pid field equals pid —
      whatever its state — is marked killed and, if SLEEPING, made RUNNABLE;
      the result is 0. With no match the result is -1 and nothing changes. */
  function Kill(t: seq<Proc>, pid: int): (r: Killed)
    ensures |r.procs| == |t|
    ensures r.ret == 0 <==> exists i :: 0 <= i < |t| && t[i].pid == pid
    ensures r.ret != 0 ==> r.ret == -1 && r.procs == t
    ensures r.ret == 0 ==> exists i :: KilledAt(t, pid, i, r.procs)
  {
    match FirstFrom(t, (p: Proc) => p.pid == pid, 0)
    case None => Killed(-1, t)
    case Some(i) =>
      var t' := t[i := KillSlot(t[i])];
      assert KilledAt(t, pid, i, t');
      Killed(0, t')
  }

  /** Kill keeps the table invariant for every pid: a live slot keeps its
      identity, and a free slot hit by kill(0) stays UNUSED and cleared up to
      its kill mark. */
  lemma KillValid(k: Kernel, pid: int)
    requires Valid(k)
    ensures Valid(k.(procs := Kill(k.procs, pid).procs))
  {
    var r := Kill(k.procs, pid);
    if r.ret == 0 {
      var i :| KilledAt(k.procs, pid, i, r.procs);
      assert forall j :: 0 <= j < |k.procs| && j != i ==> r.procs[j] == k.procs[j];
    }
  }

  /** Like KilledAt, but i is the lowest slot in use whose pid is pid. */
  ghost predicate LiveKilledAt(t: seq<Proc>, pid: int, i: int, t': seq<Proc>) {
    && 0 <= i < |t| == |t'|
    && Live(t[i]) && t[i].pid == pid
    && (forall j :: 0 <= j < i && Live(t[j]) ==> t[j].pid != pid)
    && t'[i] == KillSlot(t[i])
    && (forall j :: 0 <= j < |t| && j != i ==> t'[j] == t[j])
  }

  /** `kill` restricted to slots in use: the evidently intended behaviour,
      since a free slot has no process to kill. */
  function KillLive(t: seq<Proc>, pid: int): (r: Killed)
    ensures |r.procs| == |t|
    ensures r.ret == 0 <==> exists i :: 0 <= i < |t| && Live(t[i]) && t[i].pid == pid
    ensures r.ret != 0 ==> r.ret == -1 && r.procs == t
    ensures forall j :: 0 <= j < |t| && !Live(t[j]) ==> r.procs[j] == t[j]
    ensures r.ret == 0 ==> exists i :: LiveKilledAt(t, pid, i, r.procs)
  {
    match FirstFrom(t, (p: Proc) => Live(p) && p.pid == pid, 0)
    case None => Killed(-1, t)
    case Some(i) =>
      var t' := t[i := KillSlot(t[i])];
      assert LiveKilledAt(t, pid, i, t');
      Killed(0, t')
  }

  /** The corrected kill never touches a free slot, so it keeps the invariant
      and leaves free slots unkilled for every pid, 0 included; on a valid
      table kill(0) finds nothing. */
  lemma KillLiveValid(k: Kernel, pid: int)
    requires Valid(k)
    ensures Valid(k.(procs := KillLive(k.procs, pid).procs))
    ensures NoKilledFree(k.procs) ==> NoKilledFree(KillLive(k.procs, pid).procs)
    ensures pid == 0 ==> KillLive(k.procs, pid).ret == -1
  {
  }
}

=== FILE: scenarios.dfy ===
/**
 Boot, `userinit`, and properties that span several operations of
 kernel/proc.c: a child's whole life from `fork` to its parent's `wait`, the
 `sleep`/`wakeup` round trip, and what `kill(0)` does to the next process.
 */
module Scenarios {
  import opened Wrappers
  import opened ProcTable
  import opened Lifecycle
  import opened Scheduler
  import Lfsr

  /** Size of the one page `userinit` gives the first process. */
  const PGSIZE: nat := 4096

  /** The table as the kernel image holds it before `userinit`: every slot
      zero, both counters at 1, the generator at its seed. It satisfies the
      table invariant, has no kill mark on a free slot and holds no process. */
  function Boot(): (k: Kernel)
    ensures |k.procs| == NPROC && Valid(k) && NoKilledFree(k.procs) && LiveCount(k.procs) == 0
  {
    Kernel(seq(NPROC, i => Blank), 1, 1, Lfsr.Seed, 0)
  }

  /** `userinit`. The source does not check the allocation, so it must
      succeed: the lowest free slot becomes init, RUNNABLE, with the next pid,
      one page of memory, name "initcode" and the default scheduling fields. */
  function UserInit(k: Kernel): (r: Kernel)
    requires HasFree(k.procs)
    ensures |r.procs| == |k.procs| && LowestFree(k.procs, r.initproc)
    ensures var p := r.procs[r.initproc];
      && p.state == Runnable && p.pid == k.nextpid && p.tid == 0
      && p.sz == PGSIZE && p.name == "initcode" && p.parent == k.procs[r.initproc].parent
      && p.tickets == STRIDE1 && p.stride == DEFAULT_STRIDE && p.pass == 0 && p.ticks == 0
    ensures r.nextpid == k.nextpid + 1 && r.nexttid == k.nexttid
    ensures forall j :: 0 <= j < |k.procs| && j != r.initproc ==> EqualButSyscalls(r.procs[j], k.procs[j])
  {
    var a := AllocProc(k, false, true);
    var i := a.slot.value;
    a.k.(procs := a.k.procs[i := a.k.procs[i].(sz := PGSIZE, name := "initcode", state := Runnable)], initproc := i)
  }

  /** `userinit` on a valid table holding no process: init lands in slot 0
      with the next pid and no parent; the table invariant holds and exactly
      one slot is in use. */
  lemma UserInitOnEmpty(b: Kernel)
    requires Valid(b) && LiveCount(b.procs) == 0
    ensures var k := UserInit(b);
      && k.initproc == 0 && k.procs[0].pid == b.nextpid && k.procs[0].parent == None
      && Valid(k) && LiveCount(k.procs) == 1
  {
    var k := UserInit(b);
    assert b.procs[0].state == Unused;
    assert k.initproc == 0 by {
      assert LowestFree(b.procs, k.initproc);
    }
    forall j | 0 <= j < NPROC && j != 0
      ensures SameIdentity(k.procs[j], b.procs[j])
    {
      assert EqualButSyscalls(k.procs[j], b.procs[j]);
    }
    ValidAfterOneSlot(b.(initproc := 0), k, 0);
    LiveCountOneSlot(b.procs, k.procs, 0);
  }

  /** After boot, `userinit` puts init in slot 0 with pid 1. */
  lemma FirstProcess()
    ensures var k := UserInit(Boot());
      && k.initproc == 0 && k.procs[0].pid == 1 && k.procs[0].parent == None
      && k.nextpid == 2 && Valid(k) && LiveCount(k.procs) == 1
  {
    UserInitOnEmpty(Boot());
  }

  /** Switching into a slot and yielding straight back restores the table. */
  lemma YieldUndoesDispatch(t: seq<Proc>, i: nat)
    requires i < |t| && t[i].state == Runnable
    ensures Yield(Dispatch(t, i), i) == t
  {
    assert forall j :: 0 <= j < |t| ==> Yield(Dispatch(t, i), i)[j] == t[j];
  }

  /** A process that sleeps on c, is woken by a wakeup(c) from anyone,
      rescheduled, and returns from `sleep` is the process it was, with its
      channel cleared; other sleepers on c were woken with it and every other
      slot is unchanged. */
  lemma SleepWakeupRoundTrip(t: seq<Proc>, cur: nat, c: Chan, waker: Option<nat>)
    requires cur < |t| && t[cur].state == Running && waker != Some(cur)
    ensures var w := Wakeup(Sleep(t, cur, c), c, waker);
      && w[cur].state == Runnable
      && SleepResume(Dispatch(w, cur), cur)[cur] == t[cur].(chan := NoChan)
      && forall j :: 0 <= j < |t| && j != cur ==> w[j] == (if Wakes(t, c, waker, j) then t[j].(state := Runnable) else t[j])
  {
    var s := Sleep(t, cur, c);
    assert Wakes(s, c, waker, cur);
    assert forall j :: 0 <= j < |t| && j != cur ==> (Wakes(s, c, waker, j) <==> Wakes(t, c, waker, j));
  }

  /** On a valid table with a free slot, `kill(0)` as written reports success
      by marking the lowest free slot — the one the next `allocproc` takes —
      so the table keeps its invariant but now has a killed free slot, and
      the next process is born killed. */
  lemma KillZeroPoisonsNextProcess(k: Kernel, isThread: bool)
    requires Valid(k) && HasFree(k.procs)
    ensures Kill(k.procs, 0).ret == 0
    ensures Valid(k.(procs := Kill(k.procs, 0).procs)) && !NoKilledFree(Kill(k.procs, 0).procs)
    ensures var a := AllocProc(k.(procs := Kill(k.procs, 0).procs), isThread, true);
      a.slot.Some? && LowestFree(k.procs, a.slot.value) && a.k.procs[a.slot.value].killed
  {
    KillValid(k, 0);
    var t := k.procs;
    var w := LowestFreeExists(t);
    assert t[w].pid == 0;
    var r := Kill(t, 0);
    var i :| KilledAt(t, 0, i, r.procs);
    assert i == w;
    assert forall j :: 0 <= j < |t| ==> r.procs[j].state == t[j].state;
    assert LowestFree(r.procs, w);
  }

  /** The corrected kill refuses pid 0, so on a table without kill marks on
      free slots the next process starts unkilled. */
  lemma KillLiveZeroHarmless(k: Kernel, isThread: bool)
    requires Valid(k) && NoKilledFree(k.procs) && HasFree(k.procs)
    ensures KillLive(k.procs, 0) == Killed(-1, k.procs)
    ensures var a := AllocProc(k.(procs := KillLive(k.procs, 0).procs), isThread, true);
      a.slot.Some? && !a.k.procs[a.slot.value].killed
  {
    KillLiveValid(k, 0);
  }

  /** The preconditions of one child's whole life: cur forks, the child is
      dispatched and exits, cur waits. cur is not init and has no zombie child
      yet; init occupies its slot. */
  ghost predicate LifetimeReady(k: Kernel, cur: nat) {
    && Valid(k) && IsCurrent(k, cur)
    && cur != k.initproc && Live(k.procs[k.initproc])
    && HasFree(k.procs) && !HasZombieChild(k.procs, cur)
  }

  /** The table after fork by cur; its child runs in slot i, the lowest free slot. */
  lemma ForkIntoLowestFree(k: Kernel, cur: nat) returns (i: nat)
    requires LifetimeReady(k, cur)
    ensures LowestFree(k.procs, i) && i != cur && i != k.initproc
    ensures var f := Fork(k, cur, true, true);
      && f.ret == k.nextpid
      && ForkedInto(k, cur, i, f.k)
  {
    i := LowestFreeExists(k.procs);
    var f := Fork(k, cur, true, true);
    var i': nat :| ForkedInto(k, cur, i', f.k);
    assert LowestFree(k.procs, i');
  }

  /** A running child i of a running cur, neither of them init, exits: it
      becomes a zombie child of cur holding status, cur keeps running, no
      other slot becomes a zombie child of cur, and no slot is freed. */
  lemma ExitOfChild(k2: Kernel, cur: nat, i: nat, status: int)
    requires IsCurrent(k2, i) && IsCurrent(k2, cur) && cur != i
    requires k2.procs[i].parent == Some(cur) && i != k2.initproc && cur != k2.initproc
    ensures var e := Exit(k2, i, status);
      && e.Exited? && IsCurrent(e.k, cur)
      && IsZombieChild(e.k.procs[i], cur) && e.k.procs[i].pid == k2.procs[i].pid && e.k.procs[i].xstate == status
      && (forall j :: 0 <= j < |k2.procs| && IsZombieChild(e.k.procs[j], cur) ==> j == i || IsZombieChild(k2.procs[j], cur))
      && LiveCount(e.k.procs) == LiveCount(k2.procs)
  {
    var e := Exit(k2, i, status);
    assert !ExitWakes(k2.procs, i, k2.initproc, cur);
    forall j | 0 <= j < |k2.procs| && j != i
      ensures Live(e.k.procs[j]) == Live(k2.procs[j])
    {
      if ExitWakes(k2.procs, i, k2.initproc, j) {
        assert k2.procs[j].state == Sleeping;
      }
    }
    LiveCountOneSlot(k2.procs, e.k.procs, i);
  }

  /** The child fork put in slot i is dispatched: it runs beside cur with cur
      as parent and the pid fork returned; cur still has no zombie child and
      no slot changed liveness. */
  lemma DispatchChild(k: Kernel, cur: nat, i: nat, k1: Kernel)
    requires IsCurrent(k, cur) && cur != k.initproc && k.initproc < |k.procs| && Live(k.procs[k.initproc])
    requires !HasZombieChild(k.procs, cur) && i != cur && ForkedInto(k, cur, i, k1)
    ensures k1.procs[i].state == Runnable
    ensures var k2 := k1.(procs := Dispatch(k1.procs, i));
      && IsCurrent(k2, i) && IsCurrent(k2, cur)
      && k2.procs[i].parent == Some(cur) && k2.procs[i].pid == k.nextpid
      && k2.initproc == k.initproc && i != k2.initproc
      && !HasZombieChild(k2.procs, cur)
      && LiveCount(k2.procs) == LiveCount(k1.procs)
  {
    var k2 := k1.(procs := Dispatch(k1.procs, i));
    forall j | 0 <= j < |k.procs| && j != i
      ensures !IsZombieChild(k2.procs[j], cur)
    {
      assert EqualButSyscalls(k1.procs[j], k.procs[j]);
      assert !IsZombieChild(k.procs[j], cur);
    }
    LiveCountOneSlot(k1.procs, k2.procs, i);
  }

  /** The child fork put in slot i is dispatched and exits with status: it
      becomes cur's only zombie child, cur keeps running, and the table holds
      one more live slot than before the fork. */
  lemma ChildExits(k: Kernel, cur: nat, i: nat, k1: Kernel, status: int)
    requires IsCurrent(k, cur) && cur != k.initproc && k.initproc < |k.procs| && Live(k.procs[k.initproc])
    requires !HasZombieChild(k.procs, cur) && i != cur && ForkedInto(k, cur, i, k1)
    requires LiveCount(k1.procs) == LiveCount(k.procs) + 1
    ensures k1.procs[i].state == Runnable
    ensures var k2 := k1.(procs := Dispatch(k1.procs, i));
      && IsCurrent(k2, i)
      && var e := Exit(k2, i, status);
      && e.Exited? && IsCurrent(e.k, cur)
      && IsZombieChild(e.k.procs[i], cur) && e.k.procs[i].pid == k.nextpid && e.k.procs[i].xstate == status
      && (forall j :: 0 <= j < |k.procs| && j != i ==> !IsZombieChild(e.k.procs[j], cur))
      && LiveCount(e.k.procs) == LiveCount(k.procs) + 1
  {
    DispatchChild(k, cur, i, k1);
    ExitOfChild(k1.(procs := Dispatch(k1.procs, i)), cur, i, status);
  }

  /** A child's life from `fork` to `wait`: cur forks, the child is
      dispatched and exits with status; cur's wait then reaps exactly that
      child, returning its pid and status, and the live count is back where it
      started. */
  lemma ForkExitWait(k: Kernel, cur: nat, status: int) returns (i: nat)
    requires LifetimeReady(k, cur)
    ensures LowestFree(k.procs, i)
    ensures var f := Fork(k, cur, true, true);
      && f.ret == k.nextpid
      && f.k.procs[i].state == Runnable
      && var k2 := f.k.(procs := Dispatch(f.k.procs, i));
      && IsCurrent(k2, i)
      && Exit(k2, i, status).Exited?
      && IsCurrent(Exit(k2, i, status).k, cur)
      && var w := Wait(Exit(k2, i, status).k, cur, true, true);
      && w.Reaped? && w.pid == k.nextpid && w.status == status
      && LiveCount(w.k.procs) == LiveCount(k.procs)
  {
    i := ForkIntoLowestFree(k, cur);
    var f := Fork(k, cur, true, true);
    ForkLiveCount(k, cur, true, true);
    ChildExits(k, cur, i, f.k, status);
    var k2 := f.k.(procs := Dispatch(f.k.procs, i));
    var e := Exit(k2, i, status);
    WaitLiveCount(e.k, cur, true, true);
    var w := Wait(e.k, cur, true, true);
    var r: nat :| ReapedAt(e.k, cur, r, w);
    assert r == i;
  }
}

=== FILE: scheduler.dfy ===
/**
 The selection rules of `scheduler` in kernel/proc.c — round robin (the
 default build), lottery and stride — and `set_sched_tickets`, which sets the
 caller's tickets and stride.

 One step picks a RUNNABLE slot and marks it RUNNING; the context switch
 into it (`swtch`) and whatever the process then does are left abstract.
 */
module Scheduler {
  import opened Wrappers
  import opened ProcTable
  import Lfsr
  import Lifecycle

  /** `set_sched_tickets` refuses ticket counts above this. */
  const MAX_TICKETS: int := 10000

  predicate IsRunnable(p: Proc) {
    p.state == Runnable
  }

  /** The scheduler hands slot i to this CPU: it becomes RUNNING, nothing else changes. */
  function Dispatch(t: seq<Proc>, i: nat): (r: seq<Proc>)
    requires i < |t| && t[i].state == Runnable
    ensures |r| == |t| && r[i].state == Running
    ensures r[i].(state := Runnable) == t[i]
    ensures forall j :: 0 <= j < |t| && j != i ==> r[j] == t[j]
  {
    t[i := t[i].(state := Running)]
  }

  datatype Picked = Picked(slot: Option<nat>, procs: seq<Proc>)

  // ---------------------------------------------------------------------------
  // Round robin
  // ---------------------------------------------------------------------------

  /** Where the round-robin sweep, standing at slot from, next finds work:
      the first RUNNABLE slot at or after from, if any. */
  function RoundRobinPick(t: seq<Proc>, from: nat): (r: Option<nat>)
    requires from <= |t|
    ensures r.Some? ==> from <= r.value < |t| && t[r.value].state == Runnable
    ensures r.Some? ==> forall j :: from <= j < r.value ==> t[j].state != Runnable
    ensures r.None? ==> forall j :: from <= j < |t| ==> t[j].state != Runnable
  {
    FirstFrom(t, IsRunnable, from)
  }

  /** One dispatch of the round-robin sweep from slot from; None ends the
      sweep, and the outer loop starts the next one at slot 0. */
  function RoundRobinStep(t: seq<Proc>, from: nat): (r: Picked)
    requires from <= |t|
    ensures |r.procs| == |t|
    ensures r.slot == RoundRobinPick(t, from)
    ensures r.slot.None? ==> r.procs == t
    ensures r.slot.Some? ==> r.procs == Dispatch(t, r.slot.value)
    ensures r.slot.None? <==> forall j :: from <= j < |t| ==> t[j].state != Runnable
    ensures r.slot.Some? ==> var w := r.slot.value;
      && from <= w < |t| && t[w].state == Runnable
      && (forall j :: from <= j < w ==> t[j].state != Runnable)
      && r.procs[w] == t[w].(state := Running)
      && forall j :: 0 <= j < |t| && j != w ==> r.procs[j] == t[j]
  {
    match RoundRobinPick(t, from)
    case None => Picked(None, t)
    case Some(i) => Picked(Some(i), Dispatch(t, i))
  }

  /** The slots one sweep dispatches, in order, when every dispatched
      process runs for a quantum and yields. Every slot that is RUNNABLE
      when the sweep starts is dispatched exactly once, in slot order. */
  function YieldingSweep(t: seq<Proc>, from: nat): (s: seq<nat>)
    requires from <= |t|
    decreases |t| - from
    ensures forall x :: x in s <==> from <= x < |t| && t[x].state == Runnable
    ensures forall a, b :: 0 <= a < b < |s| ==> s[a] < s[b]
  {
    match RoundRobinPick(t, from)
    case None => []
    case Some(i) =>
      var t' := Lifecycle.Yield(Dispatch(t, i), i);
      assert t' == t;
      [i] + YieldingSweep(t', i + 1)
  }

  // ---------------------------------------------------------------------------
  // Lottery
  // ---------------------------------------------------------------------------

  /** Tickets held by the RUNNABLE slots among the first n. */
  function TicketsBefore(t: seq<Proc>, n: nat): (s: int)
    requires n <= |t|
  {
    if n == 0 then 0
    else TicketsBefore(t, n - 1) + (if t[n - 1].state == Runnable then t[n - 1].tickets else 0)
  }

  /** `sum_tickets`: the tickets of all RUNNABLE slots. With counts at most
      10000 each, a full table sums to at most 640000, well inside 32 bits. */
  function TicketSum(t: seq<Proc>): (s: int)
    ensures (forall j :: 0 <= j < |t| && t[j].state == Runnable ==> t[j].tickets <= MAX_TICKETS) ==>
      s <= MAX_TICKETS * |t|
  {
    TicketsBounded(t, |t|);
    TicketsBefore(t, |t|)
  }

  /** While every RUNNABLE count among the first n is at most the ceiling
      `set_sched_tickets` enforces, their sum is at most ceiling times n. */
  lemma {:induction false} TicketsBounded(t: seq<Proc>, n: nat)
    requires n <= |t|
    ensures (forall j :: 0 <= j < n && t[j].state == Runnable ==> t[j].tickets <= MAX_TICKETS) ==>
      TicketsBefore(t, n) <= MAX_TICKETS * n
  {
    if n > 0 {
      TicketsBounded(t, n - 1);
    }
  }

  /** With no RUNNABLE slot there are no tickets to draw from. */
  lemma {:induction false} NoRunnableNoTickets(t: seq<Proc>, n: nat)
    requires n <= |t|
    requires forall j :: 0 <= j < |t| ==> t[j].state != Runnable
    ensures TicketsBefore(t, n) == 0
  {
    if n > 0 {
      NoRunnableNoTickets(t, n - 1);
    }
  }

  /** When every RUNNABLE slot holds at least one ticket, the running total
      is at least the number of RUNNABLE slots counted, so it is positive as
      soon as one is. */
  lemma {:induction false} PositiveTickets(t: seq<Proc>, n: nat, w: nat)
    requires n <= |t| && w < n && t[w].state == Runnable
    requires forall j :: 0 <= j < |t| && t[j].state == Runnable ==> t[j].tickets >= 1
    ensures TicketsBefore(t, n) >= 1
  {
    if w < n - 1 {
      PositiveTickets(t, n - 1, w);
    } else {
      TicketsNonNegative(t, n - 1);
    }
  }

  lemma {:induction false} TicketsNonNegative(t: seq<Proc>, n: nat)
    requires n <= |t|
    requires forall j :: 0 <= j < |t| && t[j].state == Runnable ==> t[j].tickets >= 0
    ensures TicketsBefore(t, n) >= 0
  {
    if n > 0 {
      TicketsNonNegative(t, n - 1);
    }
  }

  /** Slot w wins the draw: it is the first RUNNABLE slot at which the running
      ticket total exceeds draw. */
  ghost predicate IsLotteryWinner(t: seq<Proc>, draw: int, w: nat) {
    && w < |t|
    && t[w].state == Runnable
    && TicketsBefore(t, w + 1) > draw
    && forall j :: 0 <= j < w && t[j].state == Runnable ==> TicketsBefore(t, j + 1) <= draw
  }

  /** The lottery's second loop from slot i on, with acc the running total. */
  function LotteryScan(t: seq<Proc>, draw: int, i: nat, acc: int): (r: Option<nat>)
    requires i <= |t| && acc == TicketsBefore(t, i)
    decreases |t| - i
    ensures r.Some? ==> i <= r.value < |t| && t[r.value].state == Runnable && TicketsBefore(t, r.value + 1) > draw
    ensures r.Some? ==> forall j :: i <= j < r.value && t[j].state == Runnable ==> TicketsBefore(t, j + 1) <= draw
    ensures r.None? ==> forall j :: i <= j < |t| && t[j].state == Runnable ==> TicketsBefore(t, j + 1) <= draw
  {
    if i == |t| then None
    else
      var acc' := acc + (if t[i].state == Runnable then t[i].tickets else 0);
      if t[i].state == Runnable && acc' > draw then Some(i)
      else LotteryScan(t, draw, i + 1, acc')
  }

  /** The winner of draw, or None when the running total never exceeds it. */
  function LotteryPick(t: seq<Proc>, draw: int): (r: Option<nat>)
    ensures r.Some? ==> IsLotteryWinner(t, draw, r.value)
    ensures r.None? ==> forall j :: 0 <= j < |t| && t[j].state == Runnable ==> TicketsBefore(t, j + 1) <= draw
  {
    LotteryScan(t, draw, 0, 0)
  }

  /** If no RUNNABLE slot lifts the running total above draw, the total never gets there. */
  lemma {:induction false} TotalBelowDraw(t: seq<Proc>, draw: int, n: nat)
    requires n <= |t| && 0 <= draw
    requires forall j :: 0 <= j < |t| && t[j].state == Runnable ==> TicketsBefore(t, j + 1) <= draw
    ensures TicketsBefore(t, n) <= draw
  {
    if n > 0 {
      if t[n - 1].state != Runnable {
        TotalBelowDraw(t, draw, n - 1);
        assert TicketsBefore(t, n) == TicketsBefore(t, n - 1);
      }
    }
  }

  /** A draw in [0, sum) always has a winner. */
  lemma LotteryPickExists(t: seq<Proc>, draw: int)
    requires 0 <= draw < TicketSum(t)
    ensures LotteryPick(t, draw).Some?
  {
    if LotteryPick(t, draw).None? {
      TotalBelowDraw(t, draw, |t|);
    }
  }

  lemma LotteryPickExistsWhenPositive(t: seq<Proc>, draw: int)
    requires 0 <= draw
    ensures draw < TicketSum(t) ==> LotteryPick(t, draw).Some?
  {
    if draw < TicketSum(t) {
      LotteryPickExists(t, draw);
    }
  }

  /** The winner of a draw is unique. */
  lemma LotteryWinnerUnique(t: seq<Proc>, draw: int, a: nat, b: nat)
    requires IsLotteryWinner(t, draw, a) && IsLotteryWinner(t, draw, b)
    ensures a == b
  {
  }

  /** The draw: `rand() % sum_tickets`. rand's value is non-negative, and for a
      non-negative dividend C's remainder agrees with Dafny's for either sign
      of the divisor. */
  function Draw(k: Kernel): (d: int)
    requires TicketSum(k.procs) != 0
    ensures 0 <= d < if TicketSum(k.procs) > 0 then TicketSum(k.procs) else -TicketSum(k.procs)
  {
    (Lfsr.Rand(k.lfsr) as int) % TicketSum(k.procs)
  }

  /** The winner runs: RUNNING, and one more tick. */
  function RunCounted(t: seq<Proc>, w: nat): (r: seq<Proc>)
    requires w < |t|
    ensures |r| == |t| && r[w].state == Running && r[w].ticks == t[w].ticks + 1
    ensures r[w].(state := t[w].state, ticks := t[w].ticks) == t[w]
    ensures forall j :: 0 <= j < |t| && j != w ==> r[j] == t[j]
  {
    t[w := t[w].(state := Running, ticks := t[w].ticks + 1)]
  }

  datatype LotteryRound = LotteryRound(slot: Option<nat>, k: Kernel)

  /** One outer iteration of the lottery scheduler. The source divides by the
      ticket sum unguarded, so the sum must be non-zero. The generator
      advances once; with a positive sum exactly one slot — the draw's winner
      — becomes RUNNING with one more tick, and no other slot changes. */
  function LotteryStep(k: Kernel): (r: LotteryRound)
    requires TicketSum(k.procs) != 0
    ensures r.k.lfsr == Lfsr.Rand(k.lfsr)
    ensures r.k.(lfsr := k.lfsr, procs := k.procs) == k
    ensures TicketSum(k.procs) > 0 ==> r.slot.Some?
    ensures r.slot.Some? ==> IsLotteryWinner(k.procs, Draw(k), r.slot.value)
    ensures r.slot.Some? ==> r.k.procs == RunCounted(k.procs, r.slot.value)
    ensures r.slot.None? ==> r.k.procs == k.procs
  {
    var d := Draw(k);
    LotteryPickExistsWhenPositive(k.procs, d);
    var k' := k.(lfsr := Lfsr.Rand(k.lfsr));
    match LotteryPick(k.procs, d)
    case None => LotteryRound(None, k')
    case Some(w) => LotteryRound(Some(w), k'.(procs := RunCounted(k.procs, w)))
  }

  /** Every table without a RUNNABLE slot — an idle CPU's view — has ticket
      sum 0, so the as-written lottery divides by zero on it. */
  lemma IdleTableDividesByZero(t: seq<Proc>)
    requires forall j :: 0 <= j < |t| ==> t[j].state != Runnable
    ensures TicketSum(t) == 0
  {
    NoRunnableNoTickets(t, |t|);
  }

  /** The ticket sum is 0 on an idle table, and positive on a table with a
      RUNNABLE slot when every RUNNABLE slot holds a ticket. */
  lemma TicketSumZeroFacts(t: seq<Proc>)
    ensures (forall j :: 0 <= j < |t| ==> t[j].state != Runnable) ==> TicketSum(t) == 0
    ensures ((forall j :: 0 <= j < |t| && t[j].state == Runnable ==> t[j].tickets >= 1)
             && (exists j :: 0 <= j < |t| && t[j].state == Runnable)) ==> TicketSum(t) >= 1
  {
    if forall j :: 0 <= j < |t| ==> t[j].state != Runnable {
      IdleTableDividesByZero(t);
    }
    if (forall j :: 0 <= j < |t| && t[j].state == Runnable ==> t[j].tickets >= 1)
      && exists j :: 0 <= j < |t| && t[j].state == Runnable
    {
      var w :| 0 <= w < |t| && t[w].state == Runnable;
      PositiveTickets(t, |t|, w);
    }
  }

  /** The lottery iteration with the guard the source lacks: with no tickets
      the draw is skipped and nothing changes. Every RUNNABLE slot holding a
      ticket, a winner is picked exactly when some slot is RUNNABLE. */
  function GuardedLotteryStep(k: Kernel): (r: LotteryRound)
    ensures TicketSum(k.procs) == 0 ==> r == LotteryRound(None, k)
    ensures (forall j :: 0 <= j < |k.procs| ==> k.procs[j].state != Runnable) ==> r == LotteryRound(None, k)
    ensures (forall j :: 0 <= j < |k.procs| && k.procs[j].state == Runnable ==> k.procs[j].tickets >= 1) ==>
      (r.slot.Some? <==> exists j :: 0 <= j < |k.procs| && k.procs[j].state == Runnable)
    ensures r.slot.Some? ==> IsLotteryWinner(k.procs, Draw(k), r.slot.value)
    ensures r.slot.Some? ==> r.k.procs == RunCounted(k.procs, r.slot.value)
  {
    TicketSumZeroFacts(k.procs);
    if TicketSum(k.procs) == 0 then LotteryRound(None, k) else LotteryStep(k)
  }

  // ---------------------------------------------------------------------------
  // Stride
  // ---------------------------------------------------------------------------

  /** Slot w is the stride pick: RUNNABLE with the smallest pass, the earliest
      on ties, and with a pass below INT_MAX (the scan's initial minimum,
      compared strictly). */
  ghost predicate IsStrideChoice(t: seq<Proc>, w: nat) {
    && w < |t|
    && t[w].state == Runnable
    && t[w].pass < INT_MAX
    && (forall j :: 0 <= j < |t| && t[j].state == Runnable ==> t[w].pass <= t[j].pass)
    && (forall j :: 0 <= j < w && t[j].state == Runnable ==> t[w].pass < t[j].pass)
  }

  /** The stride scan from slot i on, with `min_pass` and `last_proc` so far. */
  function StrideScan(t: seq<Proc>, i: nat, minPass: int, best: Option<nat>): (r: Option<nat>)
    requires i <= |t| && minPass <= INT_MAX
    requires forall j :: 0 <= j < i && t[j].state == Runnable ==> minPass <= t[j].pass
    requires best.None? ==> minPass == INT_MAX
    requires best.Some? ==>
      && best.value < i
      && t[best.value].state == Runnable
      && t[best.value].pass == minPass < INT_MAX
      && forall j :: 0 <= j < best.value && t[j].state == Runnable ==> minPass < t[j].pass
    decreases |t| - i
    ensures r.Some? ==> IsStrideChoice(t, r.value)
    ensures r.None? ==> forall j :: 0 <= j < |t| && t[j].state == Runnable ==> t[j].pass >= INT_MAX
  {
    if i == |t| then best
    else if t[i].state == Runnable && minPass > t[i].pass then StrideScan(t, i + 1, t[i].pass, Some(i))
    else StrideScan(t, i + 1, minPass, best)
  }

  function StridePick(t: seq<Proc>): (r: Option<nat>)
    ensures r.Some? ==> IsStrideChoice(t, r.value)
    ensures r.None? ==> forall j :: 0 <= j < |t| && t[j].state == Runnable ==> t[j].pass >= INT_MAX
  {
    StrideScan(t, 0, INT_MAX, None)
  }

  /** One outer iteration of the stride scheduler: the stride pick becomes
      RUNNING, its pass grows by its stride and its ticks by one; no other
      slot changes. Nothing is picked exactly when no RUNNABLE slot has a pass
      below INT_MAX. */
  function StrideStep(t: seq<Proc>): (r: Picked)
    ensures |r.procs| == |t|
    ensures r.slot.None? <==> forall j :: 0 <= j < |t| && t[j].state == Runnable ==> t[j].pass >= INT_MAX
    ensures r.slot.None? ==> r.procs == t
    ensures r.slot.Some? ==> IsStrideChoice(t, r.slot.value)
    ensures r.slot.Some? ==> var w := r.slot.value;
      && r.procs[w].state == Running
      && r.procs[w].pass == t[w].pass + t[w].stride
      && r.procs[w].ticks == t[w].ticks + 1
      && r.procs[w].(state := t[w].state, pass := t[w].pass, ticks := t[w].ticks) == t[w]
      && forall j :: 0 <= j < |t| && j != w ==> r.procs[j] == t[j]
  {
    match StridePick(t)
    case None => Picked(None, t)
    case Some(w) =>
      Picked(Some(w), t[w := t[w].(state := Running, pass := t[w].pass + t[w].stride, ticks := t[w].ticks + 1)])
  }

  /** The stride picks are deterministic: at most one slot qualifies. */
  lemma StrideChoiceUnique(t: seq<Proc>, a: nat, b: nat)
    requires IsStrideChoice(t, a) && IsStrideChoice(t, b)
    ensures a == b
  {
  }

  /** What a slot's pass has gained beyond stride times its ticks. */
  function PassDrift(p: Proc): (d: int)
    ensures p.ticks == 0 ==> d == p.pass
    ensures p.pass == p.stride * p.ticks ==> d == 0
  {
    p.pass - p.stride * p.ticks
  }

  /** A stride step adds to the chosen slot's pass exactly its stride per tick granted. */
  lemma StrideStepDrift(t: seq<Proc>)
    ensures var r := StrideStep(t);
      forall j :: 0 <= j < |t| ==> PassDrift(r.procs[j]) == PassDrift(t[j]) && r.procs[j].stride == t[j].stride
  {
    var r := StrideStep(t);
    if r.slot.Some? {
      var w := r.slot.value;
      assert t[w].stride * (t[w].ticks + 1) == t[w].stride * t[w].ticks + t[w].stride;
    }
  }

  /** One scheduling round under stride: the pick runs one quantum and
      yields, so it is RUNNABLE again with its pass advanced by its stride and
      one more tick; with no pick nothing changes. */
  function StrideRound(t: seq<Proc>): (r: seq<Proc>)
    ensures |r| == |t|
    ensures StrideStep(t).slot.None? ==> r == t
    ensures StrideStep(t).slot.Some? ==> var w := StrideStep(t).slot.value;
      && t[w].state == Runnable
      && r[w] == t[w].(pass := t[w].pass + t[w].stride, ticks := t[w].ticks + 1)
      && forall j :: 0 <= j < |t| && j != w ==> r[j] == t[j]
  {
    var s := StrideStep(t);
    match s.slot
    case None => t
    case Some(w) => Lifecycle.Yield(s.procs, w)
  }

  /** n stride rounds in a row. No slot changes state, tickets or stride,
      and ticks never go down. */
  function StrideRounds(t: seq<Proc>, n: nat): (r: seq<Proc>)
    ensures |r| == |t|
    ensures forall j :: 0 <= j < |t| ==>
      r[j].state == t[j].state && r[j].tickets == t[j].tickets && r[j].stride == t[j].stride && r[j].ticks >= t[j].ticks
  {
    if n == 0 then t else StrideRound(StrideRounds(t, n - 1))
  }

  /** Over any number of stride rounds every slot's pass grows by exactly its
      stride times the ticks it was granted; a slot fresh from allocation (pass
      0, ticks 0) has pass == N * stride after N selections. */
  lemma {:induction false} StrideRoundsDrift(t: seq<Proc>, n: nat)
    ensures forall j :: 0 <= j < |t| ==>
      PassDrift(StrideRounds(t, n)[j]) == PassDrift(t[j]) && StrideRounds(t, n)[j].stride == t[j].stride
  {
    if n > 0 {
      StrideRoundsDrift(t, n - 1);
      var u := StrideRounds(t, n - 1);
      StrideStepDrift(u);
    }
  }

  // ---------------------------------------------------------------------------
  // set_sched_tickets
  // ---------------------------------------------------------------------------

  /** C's `/` on `int`: the quotient truncated toward zero. Its magnitude
      counts the whole multiples of the divisor's magnitude that fit in the
      dividend's magnitude; its sign is the product of the operands' signs. */
  function CDiv(a: int, b: int): (q: int)
    requires b != 0
    ensures (a < 0) == (b < 0) || a == 0 ==> q >= 0
    ensures (a < 0) != (b < 0) ==> q <= 0
    ensures var ua, ub, uq := (if a < 0 then -a else a), (if b < 0 then -b else b), (if q < 0 then -q else q);
      uq * ub <= ua < (uq + 1) * ub
  {
    var ua := if a < 0 then -a else a;
    var ub := if b < 0 then -b else b;
    FloorBounds(ua, ub);
    var q := ua / ub;
    if (a < 0) == (b < 0) then q else -q
  }

  /** The floor quotient of naturals brackets the dividend between two
      consecutive multiples of the divisor. */
  lemma FloorBounds(a: int, b: int)
    requires 0 <= a && 0 < b
    ensures 0 <= a / b
    ensures (a / b) * b <= a < (a / b + 1) * b
  {
    var q, m := a / b, a % b;
    assert a == q * b + m && 0 <= m < b;
    assert (q + 1) * b == q * b + b;
  }

  /** `set_sched_tickets(n)` as written, on the caller's slot cur. Above 10000
      nothing changes (the kernel prints a complaint). Otherwise tickets
      becomes n, stride becomes 10000 / n and pass restarts at that stride.
      The source does not refuse n <= 0: n == 0 divides by zero, which the
      model excludes, and negative n yields a stride <= 0. */
  function SetSchedTickets(t: seq<Proc>, cur: nat, n: int): (r: seq<Proc>)
    requires cur < |t| && n != 0
    ensures |r| == |t|
    ensures n > MAX_TICKETS ==> r == t
    ensures n <= MAX_TICKETS ==> r[cur].tickets == n && r[cur].pass == r[cur].stride
    ensures 0 < n <= MAX_TICKETS ==> r[cur].stride * n <= STRIDE1 < (r[cur].stride + 1) * n
    ensures n < 0 ==> r[cur].stride <= 0
    ensures r[cur].(tickets := t[cur].tickets, stride := t[cur].stride, pass := t[cur].pass) == t[cur]
    ensures forall j :: 0 <= j < |t| && j != cur ==> r[j] == t[j]
  {
    if n > MAX_TICKETS then t
    else
      var s := CDiv(STRIDE1, n);
      t[cur := t[cur].(tickets := n, stride := s, pass := s)]
  }

  lemma MulMonotone(a: int, b: int, c: int)
    requires 0 <= a && b <= c
    ensures a * b <= a * c
  {
    assert a * c - a * b == a * (c - b);
  }

  /** More tickets never mean a larger stride (proportional share). */
  lemma StrideAntitone(n1: int, n2: int)
    requires 0 < n1 <= n2
    ensures STRIDE1 / n2 <= STRIDE1 / n1
  {
    var q1 := STRIDE1 / n1;
    var q2 := STRIDE1 / n2;
    assert q2 * n2 <= STRIDE1;
    assert STRIDE1 < (q1 + 1) * n1;
    MulMonotone(q1 + 1, n1, n2);
    if q2 >= q1 + 1 {
      MulMonotone(n2, q1 + 1, q2);
      assert false;
    }
  }

  /** A negative ticket count is accepted and gives a negative stride. */
  lemma NegativeTicketsAccepted(t: seq<Proc>, cur: nat)
    requires cur < |t|
    ensures SetSchedTickets(t, cur, -1)[cur].stride == -STRIDE1
  {
  }

  /** With a negative stride the stride pick only moves further ahead of the
      others, so it is picked again every round: it starves every other slot. */
  lemma NegativeStrideMonopolises(t: seq<Proc>, w: nat)
    requires IsStrideChoice(t, w) && t[w].stride < 0
    ensures StrideStep(t).slot == Some(w)
    ensures IsStrideChoice(StrideRound(t), w)
  {
    StrideChoiceUnique(t, w, StrideStep(t).slot.value);
  }

  /** `set_sched_tickets` refusing every count outside [1, 10000], as a
      proportional-share scheduler needs: whatever it accepts gets a stride of
      at least 1. */
  function SetSchedTicketsChecked(t: seq<Proc>, cur: nat, n: int): (r: seq<Proc>)
    requires cur < |t|
    ensures |r| == |t|
    ensures (n < 1 || n > MAX_TICKETS) ==> r == t
    ensures 1 <= n <= MAX_TICKETS ==> r[cur].tickets == n && 1 <= r[cur].stride == r[cur].pass
    ensures 1 <= n <= MAX_TICKETS ==> r[cur].stride * n <= STRIDE1 < (r[cur].stride + 1) * n
    ensures forall j :: 0 <= j < |t| && j != cur ==> r[j] == t[j]
  {
    if n < 1 || n > MAX_TICKETS then t
    else
      SetSchedTickets(t, cur, n)
  }
}

=== FILE: wrappers.dfy ===
/** Small wrapper types shared by the process-table model. */
module Wrappers {

  /** A value that may be absent: the model's stand-in for a pointer that may be null. */
  datatype Option<+T> = None | Some(value: T)
}
